=== FILE: README.md ===
# Hy-shell execution core, modelled in Dafny

Hy-shell is a small interactive shell written in C (`shell.c`). This project
models the part of it that turns one input line into work:

- `tokenize`: the blank-separated word splitter.
- `loop`: the routing of a line and the session's stop condition.
- `pipeIt`: the pipeline builder.
- `chainIt` and `process_logical_chain`: the `;` splitter and the `&&` / `||` evaluator.
- `should_run`: the operator gate.
- `execute` and `shell_exit`: the builtin dispatcher and the external-command spawner.

The model is pure functions over immutable data. Everything the C code does to
the outside world is returned as an `Effects.Effect` value instead of being
performed: printing, `chdir`, `fork`/`execvp`, `pipe`/`dup2`/`close`/`wait`.
`loop` becomes `Session.RunSession`, which reads its lines from a sequence. The
end of the sequence stands for `readline` returning NULL. Its control flow,
`Session.Loop`, is stated for any handling of a line.

## Modules

- `Wrappers`: `Option`, standing in for a C result that may be NULL.
- `Text`: the C string functions the shell relies on.
  - `strcspn` is `Span`; `strspn`-skipping is `SkipDelims`.
  - The `strsep`-style split is `Pieces`; `strtok` is `Runs`.
  - One `strtok` call is `StrtokNext`; the whole call loop is `StrtokSplit`.
  - `strstr` for a two-character needle is `FindPair`.
- `Tokenizer`: `tokenize`, which splits on space, tab, CR and LF.
- `Effects`: the effect and pipeline-plan datatypes.
- `Builtins`: `execute` and `shell_exit`.
- `Pipeline`: `pipeIt`. This covers the stage count, the stage texts and the plan of pipes, redirections, closes and waits.
- `LogicalChain`: `process_logical_chain` (parse and evaluation) and `should_run`.
- `Sequence`: `chainIt`, both as written and as evidently intended (see Findings).
- `Router`: the three tests at the top of `loop`.
- `Session`: `loop` as a whole.

Where the code's behaviour differs from what a shell user would expect, the
model follows the code:

- **Chain status.** The status that `&&` and `||` test is the value `execute`
  returns, not a child's exit status. That value is 0 only for `exit` and 1
  otherwise. So `true && echo hi` prints nothing, because `true` also yields 1
  (`LogicalChain.ExitGate`, `LogicalChain.AndAfterCommand`). Inside the
  evaluator, an OR would run its right side after anything but `exit`
  (`LogicalChain.OrAfterCommand`), but no line read at the prompt reaches the
  evaluator with `||` in it (next point).
- **`|` takes the whole line.** Any `|` anywhere sends the whole line to
  `pipeIt` before `;` is considered, so `a || b` is never an OR. `pipeIt`
  counts three stages for it, but `strtok` drops the empty piece between the
  bars and returns only two stage texts (`a ` and ` b`), so the third stage
  reads a NULL slot. The model reports that as `PipelineUndefined`
  (`Router.OrLineIsPipeline`).
- **Only the first `;` segment runs.** `chainIt` as written stops after its
  first segment (see Findings). `Session.Interpret` and `Session.RunSession`
  follow the code; `Session.InterpretIntended` and
  `Session.RunSessionIntended` are the same loop with every segment run.
- **Pipeline results.** A pipeline's stage statuses are discarded, and neither
  `pipeIt` nor `chainIt` changes the loop's status.
- **Empty `;` segments.** `strtok` drops them, so they do nothing either way.

## Model

| member | source | states |
|---|---|---|
| Text.StrtokSplit | shell.c:217-232 | The `strtok` call loop collects exactly the maximal non-empty runs of non-delimiters, in order. Each call skips delimiters, takes a run and consumes one delimiter, until a call returns NULL. |
| Text.StrtokNextToken | shell.c:217 | One `strtok` call returns NULL exactly when nothing but delimiters remains. Otherwise its token is non-empty and holds no delimiter. |
| Text.StrtokStep | shell.c:231 | After one `strtok` call, the remaining runs are the runs of what the call left behind. |
| Text.RunsShape | shell.c:217-232 | `strtok` gives at most one token more than there are delimiters. Every token is non-empty and delimiter-free. |
| Text.RunsContent | shell.c:217-232 | Concatenating the tokens gives back the text with its delimiters removed: nothing is lost, reordered or invented. |
| Text.RunsNone | shell.c:217 | There are no tokens exactly when the text is empty or all delimiters. |
| Text.RunsSplit | shell.c:217-232 | A delimiter between two texts separates their tokens and adds none. |
| Text.RunsCount | shell.c:141-151 | The token count equals the delimiter count plus one exactly when the text is well separated: non-empty, with no delimiter at either end and no two delimiters adjacent. |
| Text.RunsOfJoin | shell.c:146-150 | Joining non-empty, delimiter-free words with one delimiter and splitting with `strtok` gives the words back. |
| Text.PiecesShape | shell.c:141-150 | The split that keeps empty pieces yields exactly one piece more than there are delimiters, each delimiter-free. |
| Text.PiecesRebuild | shell.c:141-150 | Putting the delimiters back between the pieces rebuilds the text. |
| Text.Drain | shell.c:217-232 | Once a `strtok` loop has run to NULL, its saved position has nothing left, and a further `strtok(NULL, …)` with the same delimiters returns NULL. |
| Text.FindPair | shell.c:84-85 | `strstr` for a two-character needle finds the earliest occurrence, and finds none exactly when there is none. |
| Tokenizer.TokenizeLoop | shell.c:206-235 | `tokenize` returns exactly the blank-separated words. Blanks are space, tab, CR and LF. |
| Tokenizer.TokensShape | shell.c:10 | Every word is non-empty and blank-free, and there are at most blanks + 1 words. |
| Tokenizer.TokensContent | shell.c:206-235 | The words hold exactly the line's non-blank characters, in order. |
| Tokenizer.TokensNone | shell.c:217-218 | A line gives no words exactly when it is empty or all blanks. |
| Tokenizer.TokensSplit | shell.c:10 | Any blank between two texts splits their words and adds none. |
| Tokenizer.TokensOfJoin | shell.c:206-235 | Words joined by single spaces tokenize back to the same words. |
| Builtins.BranchOf | shell.c:244-294 | A word list takes no branch exactly when it is empty. It is forked and exec'd exactly when its first word is not one of `exit`, `cd`, `help`, `echo`, `hystat`. |
| Builtins.Execute | shell.c:244-311 | The result is 0 exactly for `exit` and 1 for everything else, including an empty word list (no effect) and external commands (a spawn of exactly those words). `cd` and `hystat` without an operand print their usage error. |
| Builtins.FirstOperandOnly | shell.c:249-292 | `cd` and `hystat` look only at their first operand; extra words change nothing. |
| Builtins.EchoRoundTrip | shell.c:269-276 | `echo` prints its operands joined by single spaces plus a line feed, and tokenizing that output gives the operands back. |
| Pipeline.CountStages | shell.c:141-144 | The counting loop yields the number of bars plus one. |
| Pipeline.PipeIt | shell.c:128-203 | `pipeIt` either produces a complete plan or reports `PipelineUndefined`. That covers two cases: fewer stage texts than bars + 1, where the C code hands a NULL or unset `comms` slot to `tokenize`, and 1024 or more stage texts, where it writes past the end of `comms` (shell.c:148, 151). |
| Pipeline.PipeItDefined | shell.c:141-162 | A plan exists exactly when the line is well separated by bars and the stages fit the 1024-slot `comms` array. A well-separated line has no leading, trailing or doubled bar. |
| Pipeline.DoubleBarUndefined | shell.c:146-162 | A line holding a doubled bar never gives a runnable pipeline. |
| Pipeline.PlanShape | shell.c:153-199 | A plan has bars + 1 stages, one pipe fewer than stages, and one wait per stage. The parent and every child close each end of every pipe, and no other end. |
| Pipeline.AllEndsOrder | shell.c:179-182 | The close loop visits pipe j's read end at step 2j and its write end at step 2j + 1. |
| Pipeline.AllEndsMembers | shell.c:192-195 | An end is closed exactly when its pipe was opened. |
| Pipeline.AllEndsDistinct | shell.c:192-195 | No end is closed twice. |
| Pipeline.PlanConnects | shell.c:170-177 | Pipe j is written only by stage j and read only by stage j + 1. The first stage keeps the shell's input and the last keeps its output. |
| Pipeline.PipelineOfJoin | shell.c:146-190 | Bar-joined commands give a plan with one stage per command, each exec'ing that command's words. |
| LogicalChain.NextOp | shell.c:84-95 | The parser cuts at the earliest AND or OR operator and reports which one. With no operator there is no cut. |
| LogicalChain.ParseChainShape | shell.c:80-106 | The empty segment parses to no commands. Any other segment parses to at least one command and one or zero operators fewer than commands. When the counts are equal, the segment ends with the last operator. Conversely, a segment ending in an operator that no earlier ampersand or bar overlaps parses to as many operators as commands. Every command is free of operators and leading spaces. |
| LogicalChain.ParseRender | shell.c:80-106 | Writing plain commands with operators between them and parsing gives back the same commands and operators. |
| LogicalChain.ShouldRun | shell.c:120-124 | AND lets the next command run exactly on status 0; OR exactly on a non-zero status. |
| LogicalChain.EvaluateSteps | shell.c:108-117 | The evaluation visits every command once, in order, tokenizing each. |
| LogicalChain.EvaluateStatus | shell.c:108-113 | The status is `execute`'s result for the last command that ran, or 0 before any has run. |
| LogicalChain.EvaluateEffects | shell.c:108-117 | The chain's effects are exactly those of the commands that ran, in order. |
| LogicalChain.FirstRuns | shell.c:111 | The first command always runs. |
| LogicalChain.ExitGate | shell.c:111-112 | A command behind AND runs only if the last command that ran was `exit`. A command behind OR runs exactly when it was not. |
| LogicalChain.ProcessLogicalChain | shell.c:75-118 | One step per parsed command, within the 100-slot arrays. |
| LogicalChain.ProcessEffects | shell.c:108-117 | A chain's effects are exactly those of its commands that ran, in order. |
| LogicalChain.SingleCommand | shell.c:97-117 | A segment that parses to one command runs exactly that command. |
| LogicalChain.EvaluatePair | shell.c:108-113 | After a command other than `exit`, AND skips the next command and OR runs it. |
| LogicalChain.AndAfterCommand | shell.c:80-117 | `a && b`, with `a` not `exit`, runs `a` and skips `b`. |
| LogicalChain.OrAfterCommand | shell.c:80-117 | `a`, an OR operator and `b`, with `a` not `exit`: both run. |
| Sequence.ChainItAgrees | shell.c:66-73 | On a line with at most one `;` segment, the corrected loop and the loop as written do the same thing. |
| Sequence.SegmentsAgree | shell.c:66-71 | On such a line, the segments the loop as written visits are the segments of the line. |
| Sequence.SegmentEffects | shell.c:75-118 | A segment of at most 100 commands does exactly what its commands that ran do, in order. A longer segment overflows the command arrays. |
| Sequence.ChainItSplit | shell.c:66-73 | In the corrected loop (not the code as written), a `;` splits the work: everything before it runs, then everything after it. |
| Sequence.ChainItOfJoin | shell.c:66-73 | The corrected half of the finding: in the corrected loop, `;`-joined segments each run once, in order. |
| Sequence.ChainItNothing | shell.c:67-68 | A line of nothing but `;` runs nothing. |
| Sequence.SavedAfterChain | shell.c:110 | After a chain, `strtok`'s saved position is at the end of the last command's copy, with nothing left, so `chainIt`'s next `strtok(NULL, ";")` returns NULL. |
| Sequence.AsWrittenFirstOnly | shell.c:66-73 | As written, `chainIt` runs the first `;` segment and no other. |
| Sequence.TwoSegments | shell.c:66-73 | For `a;b`, the intended loop runs both segments; the loop as written runs only `a`. |
| Sequence.EchoTwoSegments | shell.c:66-73 | `echo x;echo y` is meant to print x and then y; as written it prints only x. |
| Router.RoutePipeline | shell.c:42-46 | A line goes to `pipeIt` exactly when it holds a bar. |
| Router.RouteChain | shell.c:48-52 | A line goes to `chainIt` exactly when it has no bar but has `&&` or `;`. The test for a doubled bar never decides. |
| Router.RouteSingle | shell.c:54-59 | A line runs as one command exactly when it is non-empty and holds no bar, no `&&` and no `;`. |
| Router.RouteNothing | shell.c:54 | Only the empty line does nothing. |
| Router.OrLineIsPipeline | shell.c:42-46 | A line with a doubled bar (meant as OR) goes to `pipeIt`, whose plan is undefined. |
| Session.Interpret | shell.c:42-61 | One round as the code runs it. Only a single-command line sets the status. The empty line has no effect. |
| Session.InterpretIntended | shell.c:42-61 | The round with the corrected `chainIt` sets the same status as the code and differs from it only on chain lines. |
| Session.InterpretAgrees | shell.c:48-52 | On a line with at most one `;` segment, the corrected round and the round as written are the same. |
| Session.ExitLine | shell.c:54-63 | A line ends the session exactly when it is a single command whose first word is `exit`. |
| Session.RoutedExitContinues | shell.c:42-52 | `exit` inside a pipeline or a chain leaves the session running. |
| Session.Loop | shell.c:23-64 | The `do ... while (status)` loop, for any handling of a line: it stops at the first line that sets the status to 0, having handled every earlier line and no later one. Without such a line it handles all lines and prints a line feed when `readline` returns NULL. |
| Session.RunSession | shell.c:23-64 | The session, as the code runs it, runs every line up to and including the first exit line and stops there. With no exit line, it runs all lines and then prints a line feed at end of input. A chain line runs only its first `;` segment. |
| Session.RunSessionIntended | shell.c:23-64 | With the corrected `chainIt`, the session reads the same lines and ends the same way, and every `;` segment of a chain line runs. |

## Left out

- Reading the line: `readline`, the prompt with `getcwd`, and `add_history` are I/O. The lines arrive as a sequence.
- The startup banner and the help text's wording: `ShowHelp` stands for the fixed text.
- `hystat`'s two `system` calls and `is_command_available`: `Hystat(program)` stands for the probe and the report. The "not installed" message and the 256-byte `snprintf` truncation are not modelled.
- `chdir`: `ChangeDir(dir)` stands for the call and its `perror` on failure.
- Allocation failures: the checked `malloc` and `realloc` calls in `tokenize` and `pipeIt` end the process with `exit(EXIT_FAILURE)` when they fail. The `strdup` calls in `process_logical_chain` (shell.c:99-103) are unchecked, so a failure there would pass NULL on to `tokenize` and `strcmp`. The model assumes no allocation fails.
- `pipe` and `fork` failures: they end the process with `exit(EXIT_FAILURE)`, and the model assumes they do not happen.
- `exec` failure in a child: it is reported by the child, and the parent observes only a finished child. The exception is a stage whose `argv` is empty; see the Pipeline.PipeIt line below.
- Child exit statuses: the C code waits for children and then discards their statuses.
- The `realloc` growth of `tokenize`'s array: word lists are unbounded sequences.
- Memory release (`free`): it has no effect in the model.
- Pipeline.PipeIt: when `strtok` returns fewer stage texts than bars + 1, the C code passes a NULL or unset `comms` slot to `tokenize`. When it returns 1024 or more stage texts, the C code writes past the end of the 1024-slot `comms` array (shell.c:148, 151). The model reports `PipelineUndefined` for both instead of describing that undefined behaviour.
- Pipeline.PipeIt: a stage text made only of blanks, as in `ls | ` or `a |  | b`, yields a `RunPipeline` plan whose `Stage` has an empty `argv`. In C, `tokenize` returns `{NULL}` for that text (shell.c:162), and the child calls `execvp` with a NULL program name (shell.c:184). glibc dereferences that NULL before anything is reported. The plan carries no mark of this. The model does not describe the crash.
- Sequence.SegmentEffects: a segment of more than 100 commands writes past the end of `commands` (shell.c:99, 103). It also writes past the end of `operators` (shell.c:100) once it has more than 100 operators. The model reports `ChainOverflow` for any segment of more than 100 commands instead of a run.
- Sequence.SavedAfterChain: the C code's `strtok(NULL, ";")` (shell.c:70) reads freed memory in every case. The model assumes the byte at the freed terminator still reads as NUL, so no further segment is found. If that byte is not NUL, `chainIt` may pass leftover heap bytes to `process_logical_chain` as further segments, and the model does not produce the effects of those segments. In every case the rest of the original line is never visited.

## Findings

| source | as written | input that shows it | evidently intended | confidence | as-written member | corrected member |
|---|---|---|---|---|---|---|
| shell.c:66-73 | `chainIt` resumes with `strtok(NULL, ";")` after `process_logical_chain`, whose `tokenize` calls have moved `strtok`'s single saved position into a freed command copy, so no segment after the first is found | `echo a;echo b` prints only `a`, assuming the freed byte still reads as NUL | every `;` segment runs in order (`echo a;echo b` prints `a` then `b`) | not executed | Sequence.EchoTwoSegments | Sequence.ChainItOfJoin |

=== FILE: builtins.dfy ===
/** `execute` and `shell_exit`: the dispatcher a single command's words go
    to. The builtins are tried in the order exit, cd, help, echo, hystat;
    anything else is forked and exec'd. */
module Builtins {
  import opened Text
  import opened Tokenizer
  import opened Effects

  const CdMissing: string := "hyzen: expected argument to \"cd\"\n"
  const HystatMissing: string := "hyzen: expected argument to \"hystat\"\n"

  /** The command names `execute` handles itself. */
  const BuiltinNames: set<string> := {"exit", "cd", "help", "echo", "hystat"}

  /** `shell_exit`: the flag that ends the session. */
  function ShellExit(args: seq<string>): int
  {
    0
  }

  /** What echo prints for its operands: single spaces between them and a
      line feed at the end. */
  function EchoText(words: seq<string>): string
  {
    Join(words, ' ') + "\n"
  }

  /** Which branch of `execute` a word list takes. */
  datatype Branch = NoWords | ExitBranch | CdBranch | HelpBranch | EchoBranch | HystatBranch | External

  function BranchOf(args: seq<string>): (b: Branch)
    ensures b == NoWords <==> args == []
    ensures b == External <==> args != [] && args[0] !in BuiltinNames
  {
    if args == [] then NoWords
    else if args[0] == "exit" then ExitBranch
    else if args[0] == "cd" then CdBranch
    else if args[0] == "help" then HelpBranch
    else if args[0] == "echo" then EchoBranch
    else if args[0] == "hystat" then HystatBranch
    else External
  }

  /** `execute(args)`. The flag is 0 exactly for `exit`, else 1; an external
      command's own exit status is waited for and dropped. */
  function Execute(args: seq<string>): (r: Execution)
    ensures r.flag == 0 || r.flag == 1
    ensures r.flag == 0 <==> args != [] && args[0] == "exit"
    ensures args == [] ==> r.effects == []
    ensures |r.effects| <= 1
    ensures r.effects == [Spawn(args)] <==> args != [] && args[0] !in BuiltinNames
    ensures args == ["cd"] ==> r.effects == [Err(CdMissing)]
    ensures args == ["hystat"] ==> r.effects == [Err(HystatMissing)]
  {
    match BranchOf(args)
    case NoWords => Execution(1, [])
    case ExitBranch => Execution(ShellExit(args), [])
    case CdBranch =>
      if |args| == 1 then Execution(1, [Err(CdMissing)]) else Execution(1, [ChangeDir(args[1])])
    case HelpBranch => Execution(1, [ShowHelp])
    case EchoBranch => Execution(1, [Out(EchoText(args[1..]))])
    case HystatBranch =>
      if |args| == 1 then Execution(1, [Err(HystatMissing)]) else Execution(1, [Hystat(args[1])])
    case External => Execution(1, [Spawn(args)])
  }

  /** Only the first operand of `cd` and `hystat` is looked at; more words
      change nothing. */
  lemma FirstOperandOnly(name: string, operand: string, more: seq<string>)
    requires name == "cd" || name == "hystat"
    ensures Execute([name, operand] + more) == Execute([name, operand])
  {
    assert ([name, operand] + more)[0] == name && ([name, operand] + more)[1] == operand;
  }

  /** Echo prints what it was given: tokenizing its output gives back its
      operands, whenever they are words `tokenize` could have produced. */
  lemma EchoRoundTrip(words: seq<string>)
    requires forall i :: 0 <= i < |words| ==> words[i] != [] && Free(words[i], Blanks)
    ensures Execute(["echo"] + words).effects == [Out(EchoText(words))]
    ensures Tokenize(EchoText(words)) == words
  {
    assert (["echo"] + words)[0] == "echo" && (["echo"] + words)[1..] == words;
    TokensOfJoin(words);
    TokensSplit(Join(words, ' '), '\n', []);
    assert EchoText(words) == Join(words, ' ') + ['\n'] + [];
    TokensNone([]);
    assert Tokenize(Join(words, ' ')) + [] == words;
  }
}

=== FILE: chain.dfy ===
/** `process_logical_chain` and `should_run`: one `;`-segment is cut at `&&`
    and `||` into commands and operators, then run left to right, each
    command after the first gated by its operator and the running status.
    That status is `execute`'s return value (0 only after `exit`, else 1),
    not a child's exit status. */
module LogicalChain {
  import opened Wrappers
  import opened Text
  import opened Tokenizer
  import opened Effects
  import opened Builtins
  import opened SeqFacts

  /** Length of the `commands` and `operators` arrays. */
  const Slots: nat := 100

  /** The characters the parser skips before each command (spaces only). */
  const Spaces: set<char> := {' '}

  datatype Op = And | Or
  {
    /** The character the operator doubles. */
    function Char(): char
    {
      match this
      case And => '&'
      case Or => '|'
    }

    /** The operator as the parser copies it into `operators`. */
    function Spelling(): string
    {
      [Char(), Char()]
    }
  }

  /** The parsed segment: commands as text, and the operator after each. */
  datatype Chain = Chain(commands: seq<string>, ops: seq<Op>)

  /** An operator (`&&` or `||`) starts at offset `j` of `s`. */
  predicate OpAt(s: string, j: int)
  {
    PairAt(s, j, '&', '&') || PairAt(s, j, '|', '|')
  }

  /** Where the parser cuts next and with which operator. */
  datatype Cut = Cut(at: nat, op: Op)

  /** The two `strstr` calls and the comparison of their results: the
      earliest operator in `q`, or None when there is none. */
  function NextOp(q: string): (r: Option<Cut>)
    ensures r.Some? ==> PairAt(q, r.value.at, r.value.op.Char(), r.value.op.Char())
    ensures r.Some? ==> forall j :: 0 <= j < r.value.at ==> !OpAt(q, j)
    ensures r.None? ==> forall j :: 0 <= j < |q| ==> !OpAt(q, j)
  {
    var amp := FindPair(q, '&', '&');
    var bar := FindPair(q, '|', '|');
    if amp.Some? && (bar.None? || amp.value < bar.value) then Some(Cut(amp.value, And))
    else if bar.Some? then Some(Cut(bar.value, Or))
    else None
  }

  /** One pass of the parse loop and the passes after it, on non-empty text:
      skip spaces, cut at the earliest operator and go on two characters
      past it while text remains; with no operator, what is left is the
      last command. */
  function ParseFrom(p: string): Chain
    requires p != []
    decreases |p|
  {
    var q := SkipDelims(p, Spaces);
    match NextOp(q)
    case None => Chain([q], [])
    case Some(cut) =>
      var rest := q[cut.at + 2..];
      if rest == [] then Chain([q[..cut.at]], [cut.op])
      else
        var tail := ParseFrom(rest);
        Chain([q[..cut.at]] + tail.commands, [cut.op] + tail.ops)
  }

  /** The parse of a whole segment (the empty text has no commands). */
  function ParseChain(seg: string): Chain
  {
    if seg == [] then Chain([], []) else ParseFrom(seg)
  }

  /** The three ways one pass of the parse loop can go, each proved once so
      that the proofs below need not unfold `ParseFrom` themselves. */
  lemma ParseFromNone(p: string, q: string)
    requires p != [] && q == SkipDelims(p, Spaces) && NextOp(q).None?
    ensures ParseFrom(p) == Chain([q], [])
  {
  }

  lemma ParseFromLast(p: string, q: string, cut: Cut)
    requires p != [] && q == SkipDelims(p, Spaces) && NextOp(q) == Some(cut)
    requires q[cut.at + 2..] == []
    ensures ParseFrom(p) == Chain([q[..cut.at]], [cut.op])
  {
  }

  lemma ParseFromCons(p: string, q: string, cut: Cut)
    requires p != [] && q == SkipDelims(p, Spaces) && NextOp(q) == Some(cut)
    requires q[cut.at + 2..] != []
    ensures ParseFrom(p) ==
      Chain([q[..cut.at]] + ParseFrom(q[cut.at + 2..]).commands, [cut.op] + ParseFrom(q[cut.at + 2..]).ops)
  {
  }

  /** A command as the parser leaves it: no leading space and no operator
      inside. */
  predicate Clean(c: string)
  {
    (c == [] || c[0] != ' ') && forall j :: 0 <= j < |c| ==> !OpAt(c, j)
  }

  /** The text ends with `suffix`. */
  predicate EndsWith(s: string, suffix: string)
  {
    |suffix| <= |s| && s[|s| - |suffix|..] == suffix
  }

  /** What any parse of non-empty text looks like: at least one command,
      one operator fewer than commands or as many (when the text ends right
      after an operator), clean commands. */
  predicate Shaped(p: string, c: Chain)
  {
    && |c.commands| >= 1
    && |c.ops| <= |c.commands| <= |c.ops| + 1
    && AllClean(c.commands)
    && EndsWithLastOp(p, c)
  }

  /** The text before the earliest operator holds no operator. */
  lemma CleanBeforeCut(q: string, at: nat)
    requires at <= |q| && (q == [] || q[0] != ' ')
    requires forall j :: 0 <= j < at ==> !OpAt(q, j)
    ensures Clean(q[..at])
  {
    forall j | 0 <= j < at
      ensures !OpAt(q[..at], j)
    {
      assert !OpAt(q, j);
    }
  }

  lemma ParseFromShape(p: string)
    requires p != []
    ensures Shaped(p, ParseFrom(p))
  {
    ParseFromCounts(p);
    ParseFromClean(p);
    ParseFromEnd(p);
  }

  lemma {:induction false} ParseFromCounts(p: string)
    requires p != []
    ensures var c := ParseFrom(p);
      |c.commands| >= 1 && |c.ops| <= |c.commands| <= |c.ops| + 1
    decreases |p|
  {
    var q := SkipDelims(p, Spaces);
    var n := NextOp(q);
    if n.None? {
      ParseFromNone(p, q);
    } else {
      var cut := n.value;
      var rest := q[cut.at + 2..];
      if rest != [] {
        ParseFromCounts(rest);
        ParseFromCons(p, q, cut);
      } else {
        ParseFromLast(p, q, cut);
      }
    }
  }

  /** Every command in the list is clean. */
  predicate AllClean(cs: seq<string>)
  {
    cs == [] || (Clean(cs[0]) && AllClean(cs[1..]))
  }

  lemma {:induction false} AllCleanEach(cs: seq<string>)
    requires AllClean(cs)
    ensures forall i :: 0 <= i < |cs| ==> Clean(cs[i])
  {
    if cs != [] {
      AllCleanEach(cs[1..]);
      assert forall i :: 1 <= i < |cs| ==> cs[i] == cs[1..][i - 1];
    }
  }

  lemma {:induction false} ParseFromClean(p: string)
    requires p != []
    ensures AllClean(ParseFrom(p).commands)
    decreases |p|
  {
    var q := SkipDelims(p, Spaces);
    var n := NextOp(q);
    if n.None? {
      ParseFromNone(p, q);
      CleanBeforeCut(q, |q|);
      assert q[..|q|] == q;
      var one: seq<string> := [q];
      assert one[1..] == [];
    } else {
      var cut := n.value;
      var rest := q[cut.at + 2..];
      var first := q[..cut.at];
      if rest != [] {
        var tail := ParseFrom(rest).commands;
        ParseFromCons(p, q, cut);
        ParseFromClean(rest);
        assert ([first] + tail)[1..] == tail;
      } else {
        ParseFromLast(p, q, cut);
        var one: seq<string> := [first];
        assert one[1..] == [];
      }
      CleanBeforeCut(q, cut.at);
    }
  }

  /** `t` is a suffix of `s`. */
  predicate SuffixOf(t: string, s: string)
  {
    |t| <= |s| && t == s[|s| - |t|..]
  }

  lemma SuffixEndsWith(t: string, s: string, suffix: string)
    requires SuffixOf(t, s) && EndsWith(t, suffix)
    ensures EndsWith(s, suffix)
  {
    assert s[|s| - |suffix|..] == t[|t| - |suffix|..];
  }

  lemma SuffixTrans(r: string, t: string, s: string)
    requires SuffixOf(r, t) && SuffixOf(t, s)
    ensures SuffixOf(r, s)
  {
  }

  /** What is left after the first operator is a suffix of the text. */
  lemma RestIsSuffix(p: string, q: string, k: nat)
    requires SuffixOf(q, p) && k <= |q|
    ensures SuffixOf(q[k..], p)
  {
    assert SuffixOf(q[k..], q);
    SuffixTrans(q[k..], q, p);
  }

  /** The trailing-operator property of a parse, on chain values. */
  predicate EndsWithLastOp(p: string, c: Chain)
  {
    0 < |c.commands| == |c.ops| ==> EndsWith(p, c.ops[|c.ops| - 1].Spelling())
  }

  /** Putting a command and an operator in front of a parse of a suffix
      keeps the trailing-operator property. */
  lemma EndsWithLastOpCons(p: string, rest: string, first: string, op: Op, tail: Chain)
    requires SuffixOf(rest, p) && EndsWithLastOp(rest, tail)
    requires 1 <= |tail.commands| && |tail.ops| <= |tail.commands|
    ensures EndsWithLastOp(p, Chain([first] + tail.commands, [op] + tail.ops))
  {
    if |tail.commands| == |tail.ops| {
      var last := tail.ops[|tail.ops| - 1];
      SuffixEndsWith(rest, p, last.Spelling());
      LastOfCons(op, tail.ops);
    }
  }

  lemma PairAtEnd(q: string, at: nat, op: Op)
    requires PairAt(q, at, op.Char(), op.Char()) && at + 2 == |q|
    ensures q[at..] == op.Spelling()
  {
  }

  /** The case where the text ends right after its first operator. */
  lemma ParseFromEndLast(p: string, q: string, cut: Cut)
    requires p != [] && q == SkipDelims(p, Spaces) && NextOp(q) == Some(cut)
    requires q[cut.at + 2..] == []
    ensures EndsWithLastOp(p, ParseFrom(p))
  {
    RestIsSuffix(p, q, cut.at);
    ParseFromLast(p, q, cut);
    PairAtEnd(q, cut.at, cut.op);
    SuffixEndsWith(q[cut.at..], p, cut.op.Spelling());
  }

  /** The case where text follows the first operator: the property carries
      over from the parse of that text. */
  lemma ParseFromEndMore(p: string, q: string, cut: Cut)
    requires p != [] && q == SkipDelims(p, Spaces) && NextOp(q) == Some(cut)
    requires q[cut.at + 2..] != [] && EndsWithLastOp(q[cut.at + 2..], ParseFrom(q[cut.at + 2..]))
    ensures EndsWithLastOp(p, ParseFrom(p))
  {
    var rest := q[cut.at + 2..];
    var tail := ParseFrom(rest);
    ParseFromCons(p, q, cut);
    ParseFromCounts(rest);
    RestIsSuffix(p, q, cut.at + 2);
    EndsWithLastOpCons(p, rest, q[..cut.at], cut.op, tail);
  }

  lemma {:induction false} ParseFromEnd(p: string)
    requires p != []
    ensures EndsWithLastOp(p, ParseFrom(p))
    decreases |p|
  {
    var q := SkipDelims(p, Spaces);
    var n := NextOp(q);
    if n.None? {
      ParseFromNone(p, q);
    } else {
      var cut := n.value;
      var rest := q[cut.at + 2..];
      if rest == [] {
        ParseFromEndLast(p, q, cut);
      } else {
        ParseFromEnd(rest);
        ParseFromEndMore(p, q, cut);
      }
    }
  }

  /** `s` ends with an operator that no earlier operator overlaps: its last
      two characters are `&&` or `||`, and the one before them, if any, is
      neither `&` nor `|`. */
  predicate EndsAtOperator(s: string)
  {
    |s| >= 2 && OpAt(s, |s| - 2) && (|s| == 2 || s[|s| - 3] !in {'&', '|'})
  }

  /** Skipping leading spaces keeps the closing operator. */
  lemma SkipKeepsEnd(p: string)
    requires EndsAtOperator(p)
    ensures EndsAtOperator(SkipDelims(p, Spaces))
  {
    var q := SkipDelims(p, Spaces);
    SkipDelimsStops(p, Spaces, |p| - 2);
    assert q[|q| - 2] == p[|p| - 2] && q[|q| - 1] == p[|p| - 1];
    if |q| > 2 {
      assert q[|q| - 3] == p[|p| - 3];
    }
  }

  /** Such a text has a first operator, at the closing one or before it. */
  lemma EndsAtOperatorCut(q: string)
    requires EndsAtOperator(q)
    ensures NextOp(q).Some? && NextOp(q).value.at <= |q| - 2
  {
    assert OpAt(q, |q| - 2);
  }

  /** A first operator before the closing one ends at least one character
      before it, so what follows the cut still ends at the operator. */
  lemma RestEndsAtOperator(q: string, cut: Cut)
    requires EndsAtOperator(q) && NextOp(q) == Some(cut) && cut.at < |q| - 2
    ensures EndsAtOperator(q[cut.at + 2..])
  {
    assert cut.at != |q| - 3 by {
      assert q[cut.at] == cut.op.Char();
    }
    var rest := q[cut.at + 2..];
    assert rest[|rest| - 2] == q[|q| - 2] && rest[|rest| - 1] == q[|q| - 1];
    if |rest| > 2 {
      assert rest[|rest| - 3] == q[|q| - 3];
    }
  }

  /** A text that ends at an operator parses to as many operators as
      commands: the parser's cuts never straddle the closing operator, so
      its last cut is that operator, with nothing after it. */
  lemma {:induction false} ParseFromEndsAtOperator(p: string)
    requires EndsAtOperator(p)
    ensures |ParseFrom(p).ops| == |ParseFrom(p).commands|
    decreases |p|
  {
    var q := SkipDelims(p, Spaces);
    SkipKeepsEnd(p);
    EndsAtOperatorCut(q);
    var cut := NextOp(q).value;
    if cut.at == |q| - 2 {
      ParseFromLast(p, q, cut);
    } else {
      RestEndsAtOperator(q, cut);
      ParseFromEndsAtOperator(q[cut.at + 2..]);
      ParseFromCons(p, q, cut);
    }
  }

  /** The parse, as `process_logical_chain` builds it: the empty segment
      gives no commands; otherwise commands number the operators or one
      more, and each is clean. */
  lemma ParseChainShape(seg: string)
    ensures ParseChain(seg).commands == [] <==> seg == []
    ensures seg != [] ==> Shaped(seg, ParseChain(seg))
    ensures EndsAtOperator(seg) ==> |ParseChain(seg).ops| == |ParseChain(seg).commands|
  {
    if seg != [] {
      ParseFromShape(seg);
    }
    if EndsAtOperator(seg) {
      ParseFromEndsAtOperator(seg);
    }
  }

  /** A command the parser gives back unchanged: non-empty, not starting with
      a space, and free of `&` and `|`. */
  predicate Plain(c: string)
  {
    c != [] && c[0] != ' ' && Free(c, {'&', '|'})
  }

  /** Commands and operators written out as a segment: `c0 op0 c1 op1 ...`,
      with one operator fewer than commands, or a trailing operator. */
  function Render(commands: seq<string>, ops: seq<Op>): string
    requires |ops| <= |commands| <= |ops| + 1
  {
    if commands == [] then []
    else if ops == [] then commands[0]
    else commands[0] + ops[0].Spelling() + Render(commands[1..], ops[1..])
  }

  /** The earliest operator of `c + op + rest` is `op`, right after `c`. */
  lemma NextOpAfterPlain(c: string, op: Op, rest: string)
    requires Plain(c)
    ensures NextOp(c + op.Spelling() + rest) == Some(Cut(|c|, op))
  {
    var s := c + op.Spelling() + rest;
    assert PairAt(s, |c|, op.Char(), op.Char());
    forall j | 0 <= j < |c|
      ensures !OpAt(s, j)
    {
      assert s[j] == c[j];
    }
    var amp := FindPair(s, '&', '&');
    var bar := FindPair(s, '|', '|');
    if op == And {
      assert amp == Some(|c|) by {
        assert amp.Some? && amp.value >= |c|;
      }
      assert bar.Some? ==> bar.value > |c|;
    } else {
      assert bar == Some(|c|) by {
        assert bar.Some? && bar.value >= |c|;
      }
      assert amp.Some? ==> amp.value > |c|;
    }
  }

  lemma NoOpInPlain(c: string)
    requires Plain(c)
    ensures NextOp(c) == None
  {
    assert forall j :: 0 <= j < |c| ==> c[j] !in {'&', '|'};
  }

  /** A plain command alone parses to itself. */
  lemma ParseOfPlain(c: string)
    requires Plain(c)
    ensures ParseFrom(c) == Chain([c], [])
  {
    assert SkipDelims(c, Spaces) == c;
    NoOpInPlain(c);
    ParseFromNone(c, c);
  }

  /** A plain command followed by an operator: the parser cuts right after
      the command and goes on with what follows the operator. */
  lemma ParseOfPlainOp(c: string, op: Op, rest: string)
    requires Plain(c)
    ensures var s := c + op.Spelling() + rest;
      ParseFrom(s) == if rest == [] then Chain([c], [op])
        else Chain([c] + ParseFrom(rest).commands, [op] + ParseFrom(rest).ops)
  {
    var s := c + op.Spelling() + rest;
    assert SkipDelims(s, Spaces) == s by {
      assert s[0] == c[0];
    }
    NextOpAfterPlain(c, op, rest);
    assert s[|c| + 2..] == rest;
    assert s[..|c|] == c;
    if rest == [] {
      ParseFromLast(s, s, Cut(|c|, op));
    } else {
      ParseFromCons(s, s, Cut(|c|, op));
    }
  }

  /** A single plain command renders and parses back to itself. */
  lemma ParseRenderOne(c: string)
    requires Plain(c)
    ensures ParseChain(Render([c], [])) == Chain([c], [])
  {
    assert Render([c], []) == c;
    ParseOfPlain(c);
  }

  /** A plain command and a trailing operator parse back as written. */
  lemma ParseRenderTrailing(c: string, op: Op)
    requires Plain(c)
    ensures ParseChain(Render([c], [op])) == Chain([c], [op])
  {
    var one: seq<string> := [c];
    var ops: seq<Op> := [op];
    assert one[1..] == [] && ops[1..] == [];
    assert Render(one, ops) == c + op.Spelling() + [];
    ParseOfPlainOp(c, op, []);
  }

  /** A plain command and an operator in front of a rendering that parses
      back keep it parsing back. */
  lemma ParseRenderMore(commands: seq<string>, ops: seq<Op>)
    requires |ops| <= |commands| <= |ops| + 1 && |commands| >= 2
    requires Plain(commands[0]) && Plain(commands[1])
    requires ParseChain(Render(commands[1..], ops[1..])) == Chain(commands[1..], ops[1..])
    ensures ParseChain(Render(commands, ops)) == Chain(commands, ops)
  {
    var c := commands[0];
    var rest := Render(commands[1..], ops[1..]);
    assert Render(commands, ops) == c + ops[0].Spelling() + rest;
    ParseOfPlainOp(c, ops[0], rest);
    assert rest != [] by {
      assert commands[1..][0] == commands[1];
    }
    HeadTail(commands);
    HeadTail(ops);
  }

  /** Parsing undoes rendering: plain commands joined by operators come back
      exactly, commands and operators alike. */
  lemma {:induction false} ParseRender(commands: seq<string>, ops: seq<Op>)
    requires |ops| <= |commands| <= |ops| + 1
    requires forall i :: 0 <= i < |commands| ==> Plain(commands[i])
    ensures ParseChain(Render(commands, ops)) == Chain(commands, ops)
  {
    if commands == [] {
    } else if ops == [] {
      assert commands == [commands[0]];
      ParseRenderOne(commands[0]);
    } else if |commands| == 1 {
      assert commands == [commands[0]] && ops == [ops[0]];
      ParseRenderTrailing(commands[0], ops[0]);
    } else {
      ParseRender(commands[1..], ops[1..]);
      ParseRenderMore(commands, ops);
    }
  }

  /** `should_run(prev_status, op)`, operator passed as text: `&&` runs on
      status 0, `||` on any other status, anything else always. */
  function ShouldRun(prevStatus: int, op: string): (r: bool)
    ensures op == And.Spelling() ==> (r <==> prevStatus == 0)
    ensures op == Or.Spelling() ==> (r <==> prevStatus != 0)
  {
    if op == "&&" then prevStatus == 0
    else if op == "||" then prevStatus != 0
    else true
  }

  /** What happened to one command: run with the flag it returned, or
      skipped. Either way it was tokenized first. */
  datatype Step = Ran(args: seq<string>, flag: int) | Skipped(args: seq<string>)

  /** The state of the evaluation loop: the steps so far, the running status
      and the effects of the commands that ran. */
  datatype Progress = Progress(steps: seq<Step>, status: int, effects: seq<Effect>)

  /** A chain with its commands already tokenized, as the loop sees them. */
  datatype Words = Words(args: seq<seq<string>>, ops: seq<Op>)

  predicate WellCounted(w: Words)
  {
    |w.ops| <= |w.args| <= |w.ops| + 1
  }

  function WordsOf(c: Chain): (w: Words)
    ensures |w.args| == |c.commands| && w.ops == c.ops
  {
    Words(seq(|c.commands|, i requires 0 <= i < |c.commands| => Tokenize(c.commands[i])), c.ops)
  }

  /** The evaluation loop after its first `k` rounds. Status starts at 0;
      command 0 always runs; command i > 0 runs when `should_run` accepts
      the status and operator i - 1, and sets the status to its flag. */
  function Evaluate(w: Words, k: nat): Progress
    requires WellCounted(w) && k <= |w.args|
  {
    if k == 0 then Progress([], 0, [])
    else
      var before := Evaluate(w, k - 1);
      var i := k - 1;
      var args := w.args[i];
      if i == 0 || ShouldRun(before.status, w.ops[i - 1].Spelling()) then
        var e := Execute(args);
        Progress(before.steps + [Ran(args, e.flag)], e.flag, before.effects + e.effects)
      else
        Progress(before.steps + [Skipped(args)], before.status, before.effects)
  }

  /** The words of the last command that ran, if any did. */
  function LastRan(steps: seq<Step>): Option<seq<string>>
  {
    if steps == [] then None
    else if steps[|steps| - 1].Ran? then Some(steps[|steps| - 1].args)
    else LastRan(steps[..|steps| - 1])
  }

  /** The effects of the steps that ran, in order. */
  function EffectsOf(steps: seq<Step>): seq<Effect>
  {
    if steps == [] then []
    else
      var last := steps[|steps| - 1];
      EffectsOf(steps[..|steps| - 1]) + (if last.Ran? then Execute(last.args).effects else [])
  }

  /** One step per command so far, in order, each holding that command's
      tokens. */
  lemma {:induction false} EvaluateSteps(c: Words, k: nat)
    requires WellCounted(c) && k <= |c.args|
    ensures |Evaluate(c, k).steps| == k
    ensures forall i :: 0 <= i < k ==> Evaluate(c, k).steps[i].args == c.args[i]
  {
    if k > 0 {
      EvaluateSteps(c, k - 1);
      var before := Evaluate(c, k - 1).steps;
      var steps := Evaluate(c, k).steps;
      Snoc(before, steps[k - 1]);
      assert steps == before + [steps[k - 1]];
    }
  }

  /** The status is `execute`'s flag for the last command that ran, or the
      initial 0 when none has. */
  lemma {:induction false} EvaluateStatus(c: Words, k: nat)
    requires WellCounted(c) && k <= |c.args|
    ensures var r := Evaluate(c, k);
      r.status == if LastRan(r.steps).Some? then Execute(LastRan(r.steps).value).flag else 0
  {
    if k > 0 {
      EvaluateSteps(c, k);
      EvaluateStatus(c, k - 1);
      var before := Evaluate(c, k - 1).steps;
      var steps := Evaluate(c, k).steps;
      Snoc(before, steps[k - 1]);
      assert steps == before + [steps[k - 1]];
    }
  }

  /** The effects are exactly those of the commands that ran. */
  lemma {:induction false} EvaluateEffects(c: Words, k: nat)
    requires WellCounted(c) && k <= |c.args|
    ensures Evaluate(c, k).effects == EffectsOf(Evaluate(c, k).steps)
  {
    if k > 0 {
      EvaluateSteps(c, k);
      EvaluateEffects(c, k - 1);
      var before := Evaluate(c, k - 1).steps;
      var steps := Evaluate(c, k).steps;
      Snoc(before, steps[k - 1]);
      assert steps == before + [steps[k - 1]];
    }
  }

  predicate IsExitArgs(args: seq<string>)
  {
    args != [] && args[0] == "exit"
  }

  /** How the gate really behaves, given that the status is `execute`'s
      flag: the first command always runs; a later command behind `&&` runs
      only if the last command that ran was `exit`, and one behind `||` runs
      exactly when it was not. */
  lemma ExitGate(c: Words, i: nat)
    requires WellCounted(c) && i < |c.args|
    ensures |Evaluate(c, i + 1).steps| == i + 1
    ensures var steps := Evaluate(c, i + 1).steps;
      var last := LastRan(Evaluate(c, i).steps);
      && (i == 0 ==> steps[0].Ran?)
      && (i > 0 ==> last.Some? && (steps[i].Ran? <==>
           if c.ops[i - 1] == And then IsExitArgs(last.value) else !IsExitArgs(last.value)))
  {
    EvaluateSteps(c, i + 1);
    EvaluateSteps(c, i);
    if i > 0 {
      EvaluateStatus(c, i);
      FirstRuns(c, i);
    }
  }

  /** Command 0 always runs, so after it there is a last command that ran. */
  lemma {:induction false} FirstRuns(c: Words, k: nat)
    requires WellCounted(c) && 0 < k <= |c.args|
    ensures LastRan(Evaluate(c, k).steps).Some?
  {
    if k > 1 {
      EvaluateSteps(c, k);
      FirstRuns(c, k - 1);
      var before := Evaluate(c, k - 1).steps;
      var steps := Evaluate(c, k).steps;
      Snoc(before, steps[k - 1]);
      assert steps == before + [steps[k - 1]];
    }
  }

  /** `process_logical_chain(seg)`. Its arrays have 100 slots, so the C code
      is only defined for segments of at most 100 commands. */
  function ProcessLogicalChain(seg: string): (r: Progress)
    requires |ParseChain(seg).commands| <= Slots
    ensures |r.steps| == |ParseChain(seg).commands|
  {
    var c := ParseChain(seg);
    if c.commands == [] then Progress([], 0, [])
    else
      ParseChainShape(seg);
      EvaluateSteps(WordsOf(c), |c.commands|);
      Evaluate(WordsOf(c), |c.commands|)
  }

  /** A chain's effects are exactly those of its commands that ran. */
  lemma ProcessEffects(seg: string)
    requires |ParseChain(seg).commands| <= Slots
    ensures ProcessLogicalChain(seg).effects == EffectsOf(ProcessLogicalChain(seg).steps)
  {
    var c := ParseChain(seg);
    if c.commands != [] {
      ParseChainShape(seg);
      EvaluateEffects(WordsOf(c), |c.commands|);
    }
  }

  /** Two tokenized commands joined by one operator, when the first is not
      `exit`: it runs and sets the status to 1, so `&&` skips the second and
      `||` runs it. */
  lemma EvaluatePair(x: seq<string>, y: seq<string>, op: Op)
    requires !IsExitArgs(x)
    ensures Evaluate(Words([x, y], [op]), 2).steps ==
      if op == And then [Ran(x, 1), Skipped(y)] else [Ran(x, 1), Ran(y, Execute(y).flag)]
  {
    var w := Words([x, y], [op]);
    assert Evaluate(w, 1) == Progress([Ran(x, 1)], 1, Execute(x).effects);
  }

  lemma WordsOfPair(a: string, b: string, op: Op)
    ensures WordsOf(Chain([a, b], [op])) == Words([Tokenize(a), Tokenize(b)], [op])
  {
  }

  /** `a && b` where `a` is a command other than `exit`: `b` is skipped,
      whatever `a` does. */
  lemma AndAfterCommand(a: string, b: string)
    requires Plain(a) && Plain(b)
    requires !IsExitArgs(Tokenize(a))
    ensures |ParseChain(Render([a, b], [And])).commands| == 2
    ensures ProcessLogicalChain(Render([a, b], [And])).steps == [Ran(Tokenize(a), 1), Skipped(Tokenize(b))]
  {
    ParseRender([a, b], [And]);
    WordsOfPair(a, b, And);
    EvaluatePair(Tokenize(a), Tokenize(b), And);
  }

  /** `a || b` where `a` is a command other than `exit`: `b` always runs. */
  lemma OrAfterCommand(a: string, b: string)
    requires Plain(a) && Plain(b)
    requires !IsExitArgs(Tokenize(a))
    ensures |ParseChain(Render([a, b], [Or])).commands| == 2
    ensures ProcessLogicalChain(Render([a, b], [Or])).steps ==
      [Ran(Tokenize(a), 1), Ran(Tokenize(b), Execute(Tokenize(b)).flag)]
  {
    ParseRender([a, b], [Or]);
    WordsOfPair(a, b, Or);
    EvaluatePair(Tokenize(a), Tokenize(b), Or);
  }

  /** A segment that parses to one command runs that command alone. */
  lemma SingleCommand(seg: string, c: string)
    requires ParseChain(seg) == Chain([c], [])
    ensures ProcessLogicalChain(seg).steps == [Ran(Tokenize(c), Execute(Tokenize(c)).flag)]
    ensures ProcessLogicalChain(seg).effects == Execute(Tokenize(c)).effects
  {
    var w := WordsOf(Chain([c], []));
    var args := Tokenize(c);
    assert w == Words([args], []);
    var e := Execute(args);
    assert Evaluate(w, 0) == Progress([], 0, []);
    assert Evaluate(w, 1) == Progress([] + [Ran(args, e.flag)], e.flag, [] + e.effects);
    assert ProcessLogicalChain(seg) == Evaluate(w, 1);
  }
}

=== FILE: effects.dfy ===
/** What the shell does to the outside world, as data. Each system call the C
    code makes (printing, `chdir`, `fork`/`execvp`, `pipe`/`dup2`/`close`,
    `wait`) becomes an event the model returns instead of performing. */
module Effects {
  import opened Wrappers

  /** One end of pipe number `pipe` (`fd[pipe][0]` or `fd[pipe][1]`). */
  datatype Fd = ReadEnd(pipe: nat) | WriteEnd(pipe: nat)

  /** One forked pipeline child: the words it hands to `execvp`, the pipe end
      it `dup2`s onto its standard input and output (None: inherited), and
      the pipe ends it closes before the exec, in order. */
  datatype Stage = Stage(argv: seq<string>, stdin: Option<Fd>, stdout: Option<Fd>, closes: seq<Fd>)

  /** A whole pipeline: how many pipes are opened, the children in fork
      order, the ends the parent closes afterwards, and how many `wait`
      calls it makes. */
  datatype Plan = Plan(pipes: nat, stages: seq<Stage>, parentCloses: seq<Fd>, waits: nat)

  datatype Effect =
    | Out(text: string)                  // printed on standard output
    | Err(text: string)                  // printed on standard error
    | ChangeDir(dir: string)             // `chdir(dir)`, with `perror` on failure
    | ShowHelp                           // the fixed help text
    | Hystat(program: string)            // the `command -v` probe and `ps -C` report
    | Spawn(argv: seq<string>)           // fork, `execvp(argv[0], argv)`, waitpid
    | RunPipeline(plan: Plan)            // everything `pipeIt` does
    | PipelineUndefined(stages: nat, pieces: nat)
      // `pipeIt` with `stages` stages counted and `pieces` stage texts found: fewer texts
      // than stages hands a NULL or unset slot to `tokenize`; 1024 or more overflow `comms`
    | ChainOverflow(commands: nat)
      // `process_logical_chain` writing past its 100 command slots

  /** The value `execute` returns (0 stops the shell, 1 keeps it going) and
      what it did on the way. */
  datatype Execution = Execution(flag: int, effects: seq<Effect>)
}

=== FILE: pipeline.dfy ===
/** `pipeIt`: a line holding `|` becomes a pipeline. The stage count comes
    from counting bars, the stage texts from `strtok` on "|", and every stage
    is exec'd directly (builtins are not consulted). The model returns the
    whole plan of pipes, redirections, closes and waits as one event. */
module Pipeline {
  import opened Wrappers
  import opened Text
  import opened Tokenizer
  import opened Effects

  const Bar: set<char> := {'|'}

  /** Size of the `comms` array: one slot per stage text plus the closing NULL. */
  const CommSlots: nat := 1024

  /** The counting loop at the top of `pipeIt`: one stage, plus one per bar. */
  method CountStages(line: string) returns (pipes: nat)
    ensures pipes == Count(line, Bar) + 1
  {
    pipes := 1;
    var i := 0;
    while i < |line|
      invariant 0 <= i <= |line|
      invariant pipes == Count(line[..i], Bar) + 1
    {
      CountAppend(line[..i], [line[i]], Bar);
      assert line[..i + 1] == line[..i] + [line[i]];
      if line[i] == '|' {
        pipes := pipes + 1;
      }
      i := i + 1;
    }
    assert line[..i] == line;
  }

  /** Both ends of pipes 0 .. m-1, in the order the close loops visit them:
      `fd[0][0]`, `fd[0][1]`, `fd[1][0]`, ... */
  function AllEnds(m: nat): seq<Fd>
  {
    if m == 0 then [] else AllEnds(m - 1) + [ReadEnd(m - 1), WriteEnd(m - 1)]
  }

  /** The close loop visits pipe j's read end at step 2j and its write end
      at step 2j + 1, so it closes every end of every pipe, each once. */
  lemma {:induction false} AllEndsOrder(m: nat)
    ensures |AllEnds(m)| == 2 * m
    ensures forall j :: 0 <= j < m ==> AllEnds(m)[2 * j] == ReadEnd(j) && AllEnds(m)[2 * j + 1] == WriteEnd(j)
  {
    if m > 0 {
      AllEndsOrder(m - 1);
    }
  }

  /** An end is closed exactly when its pipe was opened. */
  lemma AllEndsMembers(m: nat, fd: Fd)
    ensures fd in AllEnds(m) <==> fd.pipe < m
  {
    AllEndsOrder(m);
    if fd.pipe < m {
      var j := fd.pipe;
      if fd.ReadEnd? {
        assert AllEnds(m)[2 * j] == fd;
      } else {
        assert AllEnds(m)[2 * j + 1] == fd;
      }
    }
  }

  /** No end is closed twice. */
  lemma AllEndsDistinct(m: nat)
    ensures forall i, k :: 0 <= i < k < |AllEnds(m)| ==> AllEnds(m)[i] != AllEnds(m)[k]
  {
    AllEndsOrder(m);
    forall i, k | 0 <= i < k < |AllEnds(m)|
      ensures AllEnds(m)[i] != AllEnds(m)[k]
    {
      var a, b := i / 2, k / 2;
      assert i == 2 * a + i % 2 && k == 2 * b + k % 2;
      if i % 2 == 0 {
        assert AllEnds(m)[i] == ReadEnd(a);
      } else {
        assert AllEnds(m)[i] == WriteEnd(a);
      }
      if k % 2 == 0 {
        assert AllEnds(m)[k] == ReadEnd(b);
      } else {
        assert AllEnds(m)[k] == WriteEnd(b);
      }
    }
  }

  /** Child i of n: it reads from pipe i-1 unless it is first, writes to
      pipe i unless it is last, and closes every pipe end before exec. */
  function StageOf(comm: string, i: nat, n: nat): Stage
    requires i < n
  {
    Stage(Tokenize(comm),
          if i > 0 then Some(ReadEnd(i - 1)) else None,
          if i + 1 < n then Some(WriteEnd(i)) else None,
          AllEnds(n - 1))
  }

  /** `pipeIt(line)`. It counts n = bars + 1 stages but takes the stage texts
      from `strtok`, which drops empty pieces. Two cases are undefined. When
      fewer texts than stages come back, stage `position` gets `tokenize(NULL)`
      and later stages read unset slots. When 1024 or more texts come back,
      writing them and their NULL terminator runs past the end of `comms`.
      A text of blanks alone gives a stage with an empty `argv`, which the C
      child passes to `execvp` as a NULL program name. */
  function PipeIt(line: string): (e: Effect)
    ensures e.RunPipeline? || e.PipelineUndefined?
  {
    var n := Count(line, Bar) + 1;
    var comms := Runs(line, Bar);
    if |comms| != n || |comms| >= CommSlots then PipelineUndefined(n, |comms|)
    else
      RunPipeline(Plan(n - 1, seq(n, i requires 0 <= i < n => StageOf(comms[i], i, n)), AllEnds(n - 1), n))
  }

  /** The plan is well defined exactly when no stage text is empty (no
      leading, trailing or doubled bar) and the stage array does not
      overflow. */
  lemma PipeItDefined(line: string)
    ensures PipeIt(line).RunPipeline? <==> WellSeparated(line, Bar) && Count(line, Bar) + 1 < CommSlots
  {
    RunsCount(line, Bar);
    RunsShape(line, Bar);
  }

  /** `||` never makes a runnable pipeline: `strtok` drops the empty piece
      between the bars, leaving one stage text fewer than stages. */
  lemma DoubleBarUndefined(line: string, i: nat)
    requires i + 1 < |line| && line[i] == '|' && line[i + 1] == '|'
    ensures PipeIt(line).PipelineUndefined?
  {
    PipeItDefined(line);
  }

  /** The shape of a plan: n stages, n - 1 pipes, n waits, and every child
      and the parent close both ends of all the pipes. */
  lemma PlanShape(line: string)
    requires PipeIt(line).RunPipeline?
    ensures var p := PipeIt(line).plan;
      && |p.stages| == Count(line, Bar) + 1
      && p.pipes + 1 == |p.stages| == p.waits
      && (forall fd :: fd in p.parentCloses <==> fd.pipe < p.pipes)
      && (forall i :: 0 <= i < |p.stages| ==> p.stages[i].closes == p.parentCloses)
  {
    var p := PipeIt(line).plan;
    forall fd
      ensures fd in p.parentCloses <==> fd.pipe < p.pipes
    {
      AllEndsMembers(p.pipes, fd);
    }
  }

  /** Pipe j carries data from stage j to stage j + 1 and from nowhere else:
      stage j is its only writer and stage j + 1 its only reader, the first
      stage keeps the shell's input and the last its output. */
  lemma PlanConnects(line: string)
    requires PipeIt(line).RunPipeline?
    ensures var p := PipeIt(line).plan;
      && (forall i, j :: 0 <= i < |p.stages| && 0 <= j < p.pipes ==>
            (p.stages[i].stdout == Some(WriteEnd(j)) <==> i == j))
      && (forall i, j :: 0 <= i < |p.stages| && 0 <= j < p.pipes ==>
            (p.stages[i].stdin == Some(ReadEnd(j)) <==> i == j + 1))
      && p.stages[0].stdin.None?
      && p.stages[|p.stages| - 1].stdout.None?
      && (forall i :: 0 <= i < |p.stages| ==> p.stages[i].stdout.None? || p.stages[i].stdout.value.pipe < p.pipes)
      && (forall i :: 0 <= i < |p.stages| ==> p.stages[i].stdin.None? || p.stages[i].stdin.value.pipe < p.pipes)
  {
  }

  /** Joining non-empty, bar-free commands with `|` gives a pipeline whose
      stages run exactly those commands' words, in order. */
  lemma PipelineOfJoin(commands: seq<string>)
    requires 0 < |commands| < CommSlots
    requires forall i :: 0 <= i < |commands| ==> commands[i] != [] && Free(commands[i], Bar)
    ensures PipeIt(Join(commands, '|')).RunPipeline?
    ensures var p := PipeIt(Join(commands, '|')).plan;
      && |p.stages| == |commands|
      && forall i :: 0 <= i < |commands| ==> p.stages[i].argv == Tokenize(commands[i])
  {
    var line := Join(commands, '|');
    RunsOfJoin(commands, '|', Bar);
    PiecesOfJoin(commands, '|', Bar);
    PiecesShape(line, Bar);
  }
}

=== FILE: router.dfy ===
/** The routing step of `loop`: which handler a line read by `readline` goes
    to. The tests are made in order: any `|` sends the line to `pipeIt`;
    otherwise `&&`, `||` or `;` send it to `chainIt`; otherwise a non-empty
    line is tokenized and executed, and an empty line does nothing. */
module Router {
  import opened Text
  import opened Pipeline

  datatype Route = ToPipeline | ToChain | ToSingle | Nothing

  /** The three tests of `loop`, with `strchr` as membership and `strstr` as
      `FindPair`. */
  function RouteOf(line: string): Route
  {
    if '|' in line then ToPipeline
    else if FindPair(line, '&', '&').Some? || FindPair(line, '|', '|').Some? || ';' in line then ToChain
    else if line != [] then ToSingle
    else Nothing
  }

  /** A line goes to `pipeIt` exactly when it holds a bar. */
  lemma RoutePipeline(line: string)
    ensures RouteOf(line) == ToPipeline <==> '|' in line
  {
  }

  /** A line goes to `chainIt` exactly when it has no bar but has `&&` or
      `;`. The `||` test never decides anything: a line holding `||` holds
      a bar and has already gone to `pipeIt`. */
  lemma RouteChain(line: string)
    ensures RouteOf(line) == ToChain <==> '|' !in line && (HasPair(line, '&', '&') || ';' in line)
  {
    if '|' !in line {
      NoBarNoOr(line);
    }
  }

  /** Without a bar there is no `||`. */
  lemma NoBarNoOr(line: string)
    requires '|' !in line
    ensures !HasPair(line, '|', '|')
  {
    forall i | 0 <= i < |line|
      ensures !PairAt(line, i, '|', '|')
    {
      assert line[i] in line;
    }
  }

  /** A line is executed as a single command exactly when it is non-empty
      and holds none of `|`, `&&` and `;`. */
  lemma RouteSingle(line: string)
    ensures RouteOf(line) == ToSingle <==>
      line != [] && '|' !in line && !HasPair(line, '&', '&') && ';' !in line
  {
    if '|' !in line {
      NoBarNoOr(line);
    }
  }

  /** Only the empty line is ignored. */
  lemma RouteNothing(line: string)
    ensures RouteOf(line) == Nothing <==> line == []
  {
  }

  /** `a || b` is never a logical OR at the prompt: the line goes to
      `pipeIt`, which counts a stage per bar plus one, while `strtok` drops
      the empty piece between the two bars and returns one stage text fewer,
      so a stage reads a NULL slot. */
  lemma OrLineIsPipeline(line: string, i: nat)
    requires i + 1 < |line| && line[i] == '|' && line[i + 1] == '|'
    ensures RouteOf(line) == ToPipeline
    ensures PipeIt(line).PipelineUndefined?
  {
    assert line[i] in line;
    DoubleBarUndefined(line, i);
  }
}

=== FILE: seqs.dfy ===
/** Small facts about sequence concatenation and slicing that the proofs
    elsewhere need spelled out, gathered so each is stated once. */
module SeqFacts {
  /** A non-empty sequence is its head followed by its tail. */
  lemma HeadTail<T>(s: seq<T>)
    requires s != []
    ensures s == [s[0]] + s[1..]
  {
  }

  /** The last element of `[x] + t` is the last element of `t`. */
  lemma LastOfCons<T>(x: T, t: seq<T>)
    requires t != []
    ensures ([x] + t)[|t|] == t[|t| - 1]
  {
  }

  /** Appending one element keeps the prefix and puts `x` last. */
  lemma Snoc<T>(a: seq<T>, x: T)
    ensures (a + [x])[..|a|] == a && (a + [x])[|a|] == x && |a + [x]| == |a| + 1
  {
  }

  lemma Assoc<T>(x: seq<T>, y: seq<T>, z: seq<T>)
    ensures x + (y + z) == (x + y) + z
  {
  }

  /** Moving one element across the middle of a concatenation. */
  lemma Regroup<T>(a: seq<T>, x: T, b: seq<T>)
    ensures (a + [x]) + b == a + ([x] + b)
  {
  }

  /** A sequence of at most one element is empty or its own first element. */
  lemma AtMostOne<T>(s: seq<T>)
    requires |s| <= 1
    ensures s == if s == [] then [] else [s[0]]
  {
  }
}

=== FILE: sequence.dfy ===
/** `chainIt`: a line holding `&&` or `;` (and no `|`) is meant to be cut at
    `;` with `strtok`, each non-empty segment going to
    `process_logical_chain`. The function always returns 1.

    `strtok` keeps a single saved position for the whole program, and the
    `tokenize` calls inside `process_logical_chain` overwrite it. The code
    as written therefore runs only the first segment (`SegmentsAsWritten`,
    `ChainItAsWritten`), and the session as the code runs it uses that. The
    evidently intended loop, every segment in order, is `Segments` and
    `ChainIt`; the corrected session uses it. */
module Sequence {
  import opened Text
  import opened Tokenizer
  import opened Effects
  import opened Builtins
  import opened LogicalChain
  import opened SeqFacts

  const Semi: set<char> := {';'}

  /** The segments the `strtok(line, ";")` loop is meant to visit. */
  function Segments(line: string): seq<string>
  {
    Runs(line, Semi)
  }

  /** What one segment does: the effects of the commands that ran, in
      order, or the overflow of the 100 command slots. */
  function SegmentEffects(seg: string): (es: seq<Effect>)
    ensures |ParseChain(seg).commands| > Slots ==> es == [ChainOverflow(|ParseChain(seg).commands|)]
    ensures |ParseChain(seg).commands| <= Slots ==> es == EffectsOf(ProcessLogicalChain(seg).steps)
  {
    var n := |ParseChain(seg).commands|;
    if n > Slots then [ChainOverflow(n)]
    else
      ProcessEffects(seg);
      ProcessLogicalChain(seg).effects
  }

  /** The effects of running the segments one after another. */
  function AllEffects(segs: seq<string>): seq<Effect>
  {
    if segs == [] then [] else SegmentEffects(segs[0]) + AllEffects(segs[1..])
  }

  lemma {:induction false} AllEffectsAppend(a: seq<string>, b: seq<string>)
    ensures AllEffects(a + b) == AllEffects(a) + AllEffects(b)
  {
    if a != [] {
      var first := SegmentEffects(a[0]);
      assert (a + b)[0] == a[0];
      assert (a + b)[1..] == a[1..] + b;
      assert AllEffects(a + b) == first + AllEffects(a[1..] + b);
      AllEffectsAppend(a[1..], b);
      Assoc(first, AllEffects(a[1..]), AllEffects(b));
    } else {
      assert a + b == b;
    }
  }

  /** `chainIt(line)` as evidently intended, every segment run. The returned
      1 is ignored by the caller, which keeps its own status. */
  function ChainIt(line: string): (r: Execution)
    ensures r.flag == 1
  {
    Execution(1, AllEffects(Segments(line)))
  }

  /** A `;` splits the work: the part before it runs completely, then the
      part after it. */
  lemma ChainItSplit(a: string, b: string)
    ensures ChainIt(a + [';'] + b).effects == ChainIt(a).effects + ChainIt(b).effects
  {
    RunsSplit(a, ';', b, Semi);
    AllEffectsAppend(Segments(a), Segments(b));
  }

  /** Segments written out with `;` between them each run once, in order. */
  lemma ChainItOfJoin(segs: seq<string>)
    requires forall i :: 0 <= i < |segs| ==> segs[i] != [] && Free(segs[i], Semi)
    ensures Segments(Join(segs, ';')) == segs
    ensures ChainIt(Join(segs, ';')).effects == AllEffects(segs)
  {
    RunsOfJoin(segs, ';', Semi);
  }

  /** Empty segments, blank ones aside, do nothing: a line of only `;`
      runs nothing. */
  lemma ChainItNothing(line: string)
    requires AllIn(line, Semi)
    ensures ChainIt(line).effects == []
  {
    RunsNone(line, Semi);
  }

  /** The last command `process_logical_chain` tokenizes: the last one it
      parsed (a non-empty segment always has one). */
  function LastCommand(seg: string): string
  {
    var cs := ParseChain(seg).commands;
    if cs == [] then [] else cs[|cs| - 1]
  }

  /** Where `strtok`'s saved position is left once `process_logical_chain(seg)`
      returns: its last `tokenize` ran `strtok` on the last command's copy
      until NULL, which leaves the position at that copy's terminator. The
      copy has been freed; the model takes the terminator byte as still
      there. */
  function SavedAfterChain(seg: string): (saved: string)
    ensures saved == []
    ensures StrtokNext(saved, Semi).token.None?
  {
    Drain(LastCommand(seg), Blanks)
  }

  /** The `chainIt` loop as written: after each segment, `strtok(NULL, ";")`
      resumes from wherever the chain left the saved position, not from the
      line. */
  function SegmentsAsWritten(saved: string): seq<string>
    decreases |saved|
  {
    var scan := StrtokNext(saved, Semi);
    if scan.token.None? then []
    else [scan.token.value] + SegmentsAsWritten(SavedAfterChain(scan.token.value))
  }

  /** `chainIt(line)` as written. */
  function ChainItAsWritten(line: string): (r: Execution)
    ensures r.flag == 1
  {
    Execution(1, AllEffects(SegmentsAsWritten(line)))
  }

  /** As written, only the first segment ever runs. */
  lemma AsWrittenFirstOnly(line: string)
    ensures SegmentsAsWritten(line) == if Segments(line) == [] then [] else [Segments(line)[0]]
  {
    var scan := StrtokNext(line, Semi);
    StrtokStep(line, Semi);
    if scan.token.Some? {
      assert SegmentsAsWritten(SavedAfterChain(scan.token.value)) == [];
    }
  }

  /** On a line of at most one segment the two loops agree. */
  lemma ChainItAgrees(line: string)
    requires |Segments(line)| <= 1
    ensures ChainIt(line) == ChainItAsWritten(line)
  {
    SegmentsAgree(line);
  }

  lemma SegmentsAgree(line: string)
    requires |Segments(line)| <= 1
    ensures SegmentsAsWritten(line) == Segments(line)
  {
    AsWrittenFirstOnly(line);
    AtMostOne(Segments(line));
  }

  /** Two non-empty segments: the intended loop runs both, the loop as
      written only the first. */
  lemma TwoSegments(a: string, b: string)
    requires a != [] && Free(a, Semi) && b != [] && Free(b, Semi)
    ensures Segments(a + [';'] + b) == [a, b]
    ensures ChainIt(a + [';'] + b).effects == SegmentEffects(a) + SegmentEffects(b)
    ensures ChainItAsWritten(a + [';'] + b).effects == SegmentEffects(a)
  {
    var segs := [a, b];
    var one: seq<string> := [b];
    assert segs[1..] == one && one[1..] == [];
    assert Join(segs, ';') == a + [';'] + b;
    ChainItOfJoin(segs);
    AsWrittenFirstOnly(a + [';'] + b);
    var first: seq<string> := [a];
    assert first[1..] == [];
    var ea, eb := SegmentEffects(a), SegmentEffects(b);
    assert AllEffects(one) == eb + AllEffects([]);
    assert AllEffects(one) == eb;
    assert AllEffects(segs) == ea + AllEffects(one);
    assert AllEffects(first) == ea + AllEffects([]);
    assert AllEffects(first) == ea;
  }

  /** `echo` with a one-character operand, as a segment of its own, prints
      that character and a line feed. */
  lemma EchoSegment(x: char)
    requires x !in Blanks && x !in {'&', '|', ' '}
    ensures SegmentEffects("echo " + [x]) == [Out([x, '\n'])]
  {
    var seg := "echo " + [x];
    EchoParse(x);
    SingleCommand(seg, seg);
    EchoWords(x);
    EchoOne(x);
  }

  lemma EchoOne(x: char)
    ensures Execute(["echo", [x]]).effects == [Out([x, '\n'])]
  {
    var words := ["echo", [x]];
    assert words[1..] == [[x]];
    var one: seq<string> := [[x]];
    assert Join(one, ' ') == [x];
    assert BranchOf(words) == EchoBranch;
    assert Execute(words) == Execution(1, [Out(EchoText(one))]);
    assert EchoText(one) == [x, '\n'];
  }

  lemma EchoParse(x: char)
    requires x !in {'&', '|', ' '}
    ensures ParseChain("echo " + [x]) == Chain(["echo " + [x]], [])
  {
    var seg := "echo " + [x];
    assert Plain(seg) by {
      assert forall j :: 0 <= j < |seg| ==> seg[j] !in {'&', '|'};
    }
    ParseRender([seg], []);
    assert Render([seg], []) == seg;
  }

  lemma EchoWords(x: char)
    requires x !in Blanks
    ensures Tokenize("echo " + [x]) == ["echo", [x]]
  {
    var words := ["echo", [x]];
    assert Join(words, ' ') == "echo " + [x] by {
      assert words[1..] == [[x]];
    }
    assert Free("echo", Blanks) && Free([x], Blanks) by {
      assert forall j :: 0 <= j < |"echo"| ==> "echo"[j] !in Blanks;
    }
    TokensOfJoin(words);
  }

  /** `echo x;echo y` for one-character operands: the intended `chainIt`
      prints x and then y, the code as written prints only x. */
  lemma EchoTwoSegments(x: char, y: char)
    requires x !in Blanks && x !in {'&', '|', ';'}
    requires y !in Blanks && y !in {'&', '|', ';'}
    ensures ChainIt("echo " + [x] + ";echo " + [y]).effects == [Out([x, '\n']), Out([y, '\n'])]
    ensures ChainItAsWritten("echo " + [x] + ";echo " + [y]).effects == [Out([x, '\n'])]
  {
    var a, b := "echo " + [x], "echo " + [y];
    assert a + [';'] + b == "echo " + [x] + ";echo " + [y];
    assert Free(a, Semi) && Free(b, Semi) by {
      assert forall j :: 0 <= j < |a| ==> a[j] != ';';
      assert forall j :: 0 <= j < |b| ==> b[j] != ';';
    }
    TwoSegments(a, b);
    EchoSegment(x);
    EchoSegment(y);
  }
}

=== FILE: session.dfy ===
/** `loop`: read a line, route it, run it, and go round again while the
    status is non-zero. The status starts at 1 and only a single command
    changes it, to `execute`'s flag, so the shell stops after a line that is
    exactly one `exit` command, or when `readline` returns NULL (modelled as
    the end of the input lines), in which case a line feed is printed. */
module Session {
  import opened Wrappers
  import opened Tokenizer
  import opened Effects
  import opened Builtins
  import opened LogicalChain
  import opened Pipeline
  import opened Sequence
  import opened Router

  /** What one line does: the new status when the line sets it, and its
      effects. */
  datatype LineStep = LineStep(status: Option<int>, effects: seq<Effect>)

  /** One round of `loop` on a line, as the code runs it: a chain line runs
      only its first `;` segment (`Sequence.ChainItAsWritten`). `pipeIt` and
      `chainIt` return values the loop ignores, so only a single command
      sets the status. */
  function Interpret(line: string): (r: LineStep)
    ensures r.status.Some? <==> RouteOf(line) == ToSingle
    ensures RouteOf(line) == Nothing ==> r.effects == []
  {
    match RouteOf(line)
    case ToPipeline => LineStep(None, [PipeIt(line)])
    case ToChain => LineStep(None, ChainItAsWritten(line).effects)
    case ToSingle =>
      var e := Execute(Tokenize(line));
      LineStep(Some(e.flag), e.effects)
    case Nothing => LineStep(None, [])
  }

  /** One round of `loop` with the evidently intended `chainIt`, which runs
      every `;` segment. It differs from `Interpret` only in the effects of
      a chain line. */
  function InterpretIntended(line: string): (r: LineStep)
    ensures r.status == Interpret(line).status
    ensures RouteOf(line) != ToChain ==> r == Interpret(line)
  {
    match RouteOf(line)
    case ToPipeline => LineStep(None, [PipeIt(line)])
    case ToChain => LineStep(None, ChainIt(line).effects)
    case ToSingle =>
      var e := Execute(Tokenize(line));
      LineStep(Some(e.flag), e.effects)
    case Nothing => LineStep(None, [])
  }

  /** The two agree on every line with at most one `;` segment. */
  lemma InterpretAgrees(line: string)
    requires |Segments(line)| <= 1
    ensures InterpretIntended(line) == Interpret(line)
  {
    ChainItAgrees(line);
  }

  /** A line that ends the session. */
  predicate IsExitLine(line: string)
  {
    Interpret(line).status == Some(0)
  }

  /** A line ends the session exactly when it goes to the single-command path
      and its first word is `exit`. An `exit` inside a pipeline or a chain
      does not end it. */
  lemma ExitLine(line: string)
    ensures IsExitLine(line) <==> RouteOf(line) == ToSingle && IsExitArgs(Tokenize(line))
  {
  }

  /** `exit` run through `chainIt` (`exit;`, `exit && x`) or `pipeIt`
      (`exit | x`) leaves the session running. */
  lemma RoutedExitContinues(line: string)
    requires RouteOf(line) != ToSingle
    ensures !IsExitLine(line)
    ensures Interpret(line).status.None?
  {
  }

  /** The effects of a run of lines, none of which ended the session, when
      each line is handled by `handle`. */
  function TraceOf(lines: seq<string>, handle: string -> LineStep): seq<Effect>
  {
    if lines == [] then [] else TraceOf(lines[..|lines| - 1], handle) + handle(lines[|lines| - 1]).effects
  }

  /** One more line adds its own effects to the trace. */
  lemma TraceStep(lines: seq<string>, i: nat, handle: string -> LineStep)
    requires i < |lines|
    ensures TraceOf(lines[..i + 1], handle) == TraceOf(lines[..i], handle) + handle(lines[i]).effects
  {
    assert lines[..i + 1][..i] == lines[..i];
  }

  /** The effects of a run of lines as the shell runs them. */
  function Trace(lines: seq<string>): seq<Effect>
  {
    TraceOf(lines, Interpret)
  }

  /** How the session ended. */
  datatype Ending = EndOfInput | ExitCommand

  datatype SessionResult = SessionResult(linesRead: nat, ending: Ending, effects: seq<Effect>)

  /** The control flow of `loop()`, whatever a line does: the status starts
      at 1, a line that sets it replaces it, and the loop stops once it is 0
      or when `readline` returns NULL, printing a line feed in that case. So
      it stops at the first line that sets the status to 0, having handled
      every line before it, or at the end of the input, having handled them
      all. */
  method Loop(lines: seq<string>, handle: string -> LineStep) returns (r: SessionResult)
    ensures r.linesRead <= |lines|
    ensures r.ending == ExitCommand <==> exists i :: 0 <= i < |lines| && handle(lines[i]).status == Some(0)
    ensures r.ending == ExitCommand ==>
      && 0 < r.linesRead
      && handle(lines[r.linesRead - 1]).status == Some(0)
      && (forall i :: 0 <= i < r.linesRead - 1 ==> handle(lines[i]).status != Some(0))
      && r.effects == TraceOf(lines[..r.linesRead], handle)
    ensures r.ending == EndOfInput ==>
      r.linesRead == |lines| && r.effects == TraceOf(lines, handle) + [Out("\n")]
  {
    var status := 1;
    var i := 0;
    var effects := [];
    while true
      invariant 0 <= i <= |lines|
      invariant status != 0
      invariant effects == TraceOf(lines[..i], handle)
      invariant forall j :: 0 <= j < i ==> handle(lines[j]).status != Some(0)
      decreases |lines| - i
    {
      if i == |lines| {
        assert lines[..i] == lines;
        return SessionResult(i, EndOfInput, effects + [Out("\n")]);
      }
      var step := handle(lines[i]);
      TraceStep(lines, i, handle);
      effects := effects + step.effects;
      i := i + 1;
      if step.status.Some? {
        status := step.status.value;
      }
      if status == 0 {
        return SessionResult(i, ExitCommand, effects);
      }
    }
  }

  /** `loop()` on the lines `readline` returns, in order. It stops at the
      first exit line, having run every line before it, or at the end of the
      input, having run them all and printed a line feed. */
  method RunSession(lines: seq<string>) returns (r: SessionResult)
    ensures r.linesRead <= |lines|
    ensures r.ending == ExitCommand <==> exists i :: 0 <= i < |lines| && IsExitLine(lines[i])
    ensures r.ending == ExitCommand ==>
      && 0 < r.linesRead
      && IsExitLine(lines[r.linesRead - 1])
      && (forall i :: 0 <= i < r.linesRead - 1 ==> !IsExitLine(lines[i]))
      && r.effects == Trace(lines[..r.linesRead])
    ensures r.ending == EndOfInput ==>
      r.linesRead == |lines| && r.effects == Trace(lines) + [Out("\n")]
  {
    r := Loop(lines, Interpret);
  }

  /** `loop()` with the evidently intended `chainIt`: it reads the same lines
      and ends the same way as `RunSession`, and differs only in running
      every `;` segment of a chain line. */
  method RunSessionIntended(lines: seq<string>) returns (r: SessionResult)
    ensures r.linesRead <= |lines|
    ensures r.ending == ExitCommand <==> exists i :: 0 <= i < |lines| && IsExitLine(lines[i])
    ensures r.ending == ExitCommand ==>
      && 0 < r.linesRead
      && IsExitLine(lines[r.linesRead - 1])
      && (forall i :: 0 <= i < r.linesRead - 1 ==> !IsExitLine(lines[i]))
      && r.effects == TraceOf(lines[..r.linesRead], InterpretIntended)
    ensures r.ending == EndOfInput ==>
      r.linesRead == |lines| && r.effects == TraceOf(lines, InterpretIntended) + [Out("\n")]
  {
    r := Loop(lines, InterpretIntended);
  }
}

=== FILE: text.dfy ===
/** Pure models of the C library string routines the shell cuts its input
    with: `strcspn`/`strspn`, the pieces between delimiters (what `strsep`
    returns), `strtok`'s maximal runs outside a delimiter set, and a
    two-character `strstr`. `strtok` overwrites delimiters with NUL and keeps
    a hidden saved position; here every split returns fresh sequences, and
    the saved position is an explicit value (`Scan.rest`) so that sharing it
    between callers can be reasoned about. */
module Text {
  import opened Wrappers
  import opened SeqFacts

  /** Number of characters of `s` that belong to `d`. */
  function Count(s: string, d: set<char>): nat
  {
    if s == [] then 0 else (if s[0] in d then 1 else 0) + Count(s[1..], d)
  }

  /** `s` contains no character of `d`. */
  predicate Free(s: string, d: set<char>)
  {
    forall i :: 0 <= i < |s| ==> s[i] !in d
  }

  /** Every character of `s` belongs to `d` (vacuously so when `s` is empty). */
  predicate AllIn(s: string, d: set<char>)
  {
    forall i :: 0 <= i < |s| ==> s[i] in d
  }

  /** The characters of `s` that belong to `d`, in order. */
  function Delimiters(s: string, d: set<char>): string
  {
    if s == [] then []
    else
      var rest := Delimiters(s[1..], d);
      if s[0] in d then [s[0]] + rest else rest
  }

  /** The characters of `s` outside `d`, in order. */
  function Strip(s: string, d: set<char>): string
  {
    if s == [] then []
    else
      var rest := Strip(s[1..], d);
      if s[0] in d then rest else [s[0]] + rest
  }

  lemma {:induction false} CountAppend(x: string, y: string, d: set<char>)
    ensures Count(x + y, d) == Count(x, d) + Count(y, d)
  {
    if x == [] {
      assert x + y == y;
    } else {
      CountAppend(x[1..], y, d);
      assert (x + y)[0] == x[0] && (x + y)[1..] == x[1..] + y;
    }
  }

  lemma {:induction false} DelimitersAppend(x: string, y: string, d: set<char>)
    ensures Delimiters(x + y, d) == Delimiters(x, d) + Delimiters(y, d)
  {
    if x == [] {
      assert x + y == y;
    } else {
      DelimitersAppend(x[1..], y, d);
      assert (x + y)[1..] == x[1..] + y;
      assert (x + y)[0] == x[0];
    }
  }

  lemma {:induction false} StripAppend(x: string, y: string, d: set<char>)
    ensures Strip(x + y, d) == Strip(x, d) + Strip(y, d)
  {
    if x == [] {
      assert x + y == y;
    } else {
      StripAppend(x[1..], y, d);
      assert (x + y)[1..] == x[1..] + y;
      assert (x + y)[0] == x[0];
      if x[0] !in d {
        Assoc([x[0]], Strip(x[1..], d), Strip(y, d));
      }
    }
  }

  lemma {:induction false} FiltersOfFree(w: string, d: set<char>)
    requires Free(w, d)
    ensures Count(w, d) == 0 && Delimiters(w, d) == [] && Strip(w, d) == w
  {
    if w != [] {
      FiltersOfFree(w[1..], d);
      assert w == [w[0]] + w[1..];
    }
  }

  lemma FiltersOfDelimiter(c: char, d: set<char>)
    requires c in d
    ensures Count([c], d) == 1 && Delimiters([c], d) == [c] && Strip([c], d) == []
  {
    assert [c][1..] == [];
  }

  function Concat(ps: seq<string>): string
  {
    if ps == [] then [] else ps[0] + Concat(ps[1..])
  }

  lemma {:induction false} ConcatAppend(a: seq<string>, b: seq<string>)
    ensures Concat(a + b) == Concat(a) + Concat(b)
  {
    if a == [] {
      assert a + b == b;
    } else {
      ConcatAppend(a[1..], b);
      assert (a + b)[1..] == a[1..] + b;
      assert (a + b)[0] == a[0];
    }
  }

  /** `strcspn`: the length of the leading run of characters outside `d`. */
  function Span(s: string, d: set<char>): (k: nat)
    ensures k <= |s|
    ensures k < |s| ==> s[k] in d
  {
    if s == [] || s[0] in d then 0 else 1 + Span(s[1..], d)
  }

  /** The span holds no delimiter, so it is the longest such prefix. */
  lemma {:induction false} SpanFree(s: string, d: set<char>)
    ensures Free(s[..Span(s, d)], d)
  {
    if s != [] && s[0] !in d {
      SpanFree(s[1..], d);
      assert forall i :: 1 <= i < Span(s, d) ==> s[..Span(s, d)][i] == s[1..][..Span(s[1..], d)][i - 1];
    }
  }

  /** `strspn`: what is left of `s` once its leading delimiters are skipped. */
  function SkipDelims(s: string, d: set<char>): (t: string)
    ensures |t| <= |s| && t == s[|s| - |t|..]
    ensures t == [] || t[0] !in d
  {
    if s != [] && s[0] in d then SkipDelims(s[1..], d) else s
  }

  /** Everything skipped is a delimiter. */
  lemma {:induction false} SkipDelimsAllIn(s: string, d: set<char>)
    ensures AllIn(s[..|s| - |SkipDelims(s, d)|], d)
  {
    if s != [] && s[0] in d {
      SkipDelimsAllIn(s[1..], d);
      var n := |s| - |SkipDelims(s, d)|;
      assert forall i :: 1 <= i < n ==> s[..n][i] == s[1..][..n - 1][i - 1];
    }
  }

  /** Skipping stops at the first character outside `d`. */
  lemma {:induction false} SkipDelimsStops(s: string, d: set<char>, k: nat)
    requires k < |s| && s[k] !in d
    ensures |SkipDelims(s, d)| >= |s| - k
  {
    if s != [] && s[0] in d {
      SkipDelimsStops(s[1..], d, k - 1);
    }
  }

  /** The text between consecutive delimiters, empty pieces included: what
      repeated `strsep` calls return, and what `strtok` filters. */
  function Pieces(s: string, d: set<char>): (ps: seq<string>)
    ensures |ps| >= 1
    decreases |s|
  {
    var k := Span(s, d);
    if k == |s| then [s] else [s[..k]] + Pieces(s[k + 1..], d)
  }

  lemma {:induction false} SpanOfFree(a: string, c: char, b: string, d: set<char>)
    requires Free(a, d) && c in d
    ensures Span(a + [c] + b, d) == |a|
  {
    var s := a + [c] + b;
    if a == [] {
      assert s[0] == c;
    } else {
      SpanOfFree(a[1..], c, b, d);
      assert s[0] == a[0] && s[1..] == a[1..] + [c] + b;
    }
  }

  lemma {:induction false} SpanOfNotFree(a: string, c: char, b: string, d: set<char>)
    requires !Free(a, d)
    ensures Span(a + [c] + b, d) == Span(a, d) < |a|
  {
    var s := a + [c] + b;
    assert s[0] == a[0];
    if a[0] !in d {
      SpanOfNotFree(a[1..], c, b, d);
      assert s[1..] == a[1..] + [c] + b;
    }
  }

  lemma {:induction false} SpanOfWord(w: string, d: set<char>)
    requires Free(w, d)
    ensures Span(w, d) == |w|
  {
    if w != [] {
      SpanOfWord(w[1..], d);
      assert w[0] !in d;
    }
  }

  lemma PiecesOfFree(w: string, d: set<char>)
    requires Free(w, d)
    ensures Pieces(w, d) == [w]
  {
    SpanOfWord(w, d);
    assert w[..|w|] == w;
  }

  /** A delimiter splits the pieces of the text around it. */
  lemma {:induction false} PiecesSplit(a: string, c: char, b: string, d: set<char>)
    requires c in d
    ensures Pieces(a + [c] + b, d) == Pieces(a, d) + Pieces(b, d)
    decreases |a|
  {
    if Free(a, d) {
      PiecesSplitFree(a, c, b, d);
    } else {
      PiecesSplitCut(a, c, b, d);
      var k := Span(a, d);
      PiecesSplit(a[k + 1..], c, b, d);
    }
  }

  lemma PiecesSplitFree(a: string, c: char, b: string, d: set<char>)
    requires c in d && Free(a, d)
    ensures Pieces(a + [c] + b, d) == Pieces(a, d) + Pieces(b, d)
  {
    var s := a + [c] + b;
    SpanOfFree(a, c, b, d);
    PiecesOfFree(a, d);
    assert s[..|a|] == a && s[|a| + 1..] == b;
  }

  /** When `a` itself holds a delimiter, the text splits at `a`'s first one. */
  lemma PiecesSplitCut(a: string, c: char, b: string, d: set<char>)
    requires !Free(a, d)
    ensures var k := Span(a, d);
      && k < |a|
      && Pieces(a + [c] + b, d) == [a[..k]] + Pieces(a[k + 1..] + [c] + b, d)
      && Pieces(a, d) == [a[..k]] + Pieces(a[k + 1..], d)
  {
    var s := a + [c] + b;
    SpanOfNotFree(a, c, b, d);
    var k := Span(a, d);
    assert s[..k] == a[..k] && s[k + 1..] == a[k + 1..] + [c] + b;
  }

  /** A text with no delimiter is one piece, and is all kept by Strip. */
  lemma WholeWord(s: string, d: set<char>)
    requires Span(s, d) == |s|
    ensures Free(s, d) && Pieces(s, d) == [s]
    ensures Count(s, d) == 0 && Delimiters(s, d) == [] && Strip(s, d) == s
  {
    SpanFree(s, d);
    assert s[..|s|] == s;
    FiltersOfFree(s, d);
  }

  /** The text, cut at its first delimiter: the first piece, that delimiter,
      and what follows. */
  lemma FirstCut(s: string, d: set<char>)
    requires Span(s, d) < |s|
    ensures var k := Span(s, d);
      && s == s[..k] + [s[k]] + s[k + 1..]
      && Free(s[..k], d)
      && Pieces(s, d) == [s[..k]] + Pieces(s[k + 1..], d)
      && Count(s, d) == Count(s[k + 1..], d) + 1
      && Delimiters(s, d) == [s[k]] + Delimiters(s[k + 1..], d)
      && Strip(s, d) == s[..k] + Strip(s[k + 1..], d)
  {
    var k := Span(s, d);
    var a, c, b := s[..k], s[k], s[k + 1..];
    assert s == a + [c] + b;
    SpanFree(s, d);
    FiltersAround(a, c, b, d);
  }

  /** The filters of a delimiter-free text, one delimiter, and the rest. */
  lemma FiltersAround(a: string, c: char, b: string, d: set<char>)
    requires Free(a, d) && c in d
    ensures Count(a + [c] + b, d) == Count(b, d) + 1
    ensures Delimiters(a + [c] + b, d) == [c] + Delimiters(b, d)
    ensures Strip(a + [c] + b, d) == a + Strip(b, d)
  {
    FiltersOfFree(a, d);
    FiltersOfDelimiter(c, d);
    CountAround(a, c, b, d);
    DelimitersAround(a, c, b, d);
    StripAround(a, c, b, d);
  }

  lemma CountAround(a: string, c: char, b: string, d: set<char>)
    requires Count(a, d) == 0 && Count([c], d) == 1
    ensures Count(a + [c] + b, d) == Count(b, d) + 1
  {
    CountAppend(a + [c], b, d);
    CountAppend(a, [c], d);
  }

  lemma DelimitersAround(a: string, c: char, b: string, d: set<char>)
    requires Delimiters(a, d) == [] && Delimiters([c], d) == [c]
    ensures Delimiters(a + [c] + b, d) == [c] + Delimiters(b, d)
  {
    DelimitersAppend(a + [c], b, d);
    DelimitersAppend(a, [c], d);
  }

  lemma StripAround(a: string, c: char, b: string, d: set<char>)
    requires Strip(a, d) == a && Strip([c], d) == []
    ensures Strip(a + [c] + b, d) == a + Strip(b, d)
  {
    StripAppend(a + [c], b, d);
    StripAppend(a, [c], d);
  }

  /** One piece more than there are delimiters, and no piece holds a delimiter. */
  lemma {:induction false} PiecesShape(s: string, d: set<char>)
    ensures |Pieces(s, d)| == Count(s, d) + 1
    ensures forall i :: 0 <= i < |Pieces(s, d)| ==> Free(Pieces(s, d)[i], d)
    decreases |s|
  {
    var k := Span(s, d);
    if k == |s| {
      WholeWord(s, d);
    } else {
      FirstCut(s, d);
      PiecesShape(s[k + 1..], d);
    }
  }

  /** `ps[0] + ds[0] + ps[1] + ds[1] + ... + ps[|ds|]`. */
  function Interleave(ps: seq<string>, ds: string): string
    requires |ps| == |ds| + 1
  {
    if ds == [] then ps[0] else ps[0] + [ds[0]] + Interleave(ps[1..], ds[1..])
  }

  /** Putting each delimiter back between its neighbouring pieces rebuilds the
      text exactly; as no piece holds a delimiter, this pins the pieces down. */
  lemma {:induction false} PiecesRebuild(s: string, d: set<char>)
    ensures |Pieces(s, d)| == |Delimiters(s, d)| + 1
    ensures Interleave(Pieces(s, d), Delimiters(s, d)) == s
    decreases |s|
  {
    var k := Span(s, d);
    if k == |s| {
      WholeWord(s, d);
    } else {
      FirstCut(s, d);
      PiecesRebuild(s[k + 1..], d);
    }
  }

  /** `p` as a one-element list, or nothing when `p` is empty. */
  function Keep(p: string): seq<string>
  {
    if p == [] then [] else [p]
  }

  /** The non-empty members of `ps`, in order. */
  function NonEmpty(ps: seq<string>): seq<string>
  {
    if ps == [] then [] else Keep(ps[0]) + NonEmpty(ps[1..])
  }

  lemma NonEmptySingle(p: string)
    ensures NonEmpty([p]) == Keep(p)
  {
    assert [p][1..] == [];
  }

  /** Filtering keeps members of `ps` only, and only non-empty ones. */
  lemma {:induction false} NonEmptyShape(ps: seq<string>, d: set<char>)
    requires forall i :: 0 <= i < |ps| ==> Free(ps[i], d)
    ensures |NonEmpty(ps)| <= |ps|
    ensures forall i :: 0 <= i < |NonEmpty(ps)| ==> NonEmpty(ps)[i] != [] && Free(NonEmpty(ps)[i], d)
  {
    if ps != [] {
      NonEmptyShape(ps[1..], d);
      assert forall i :: 0 <= i < |ps[1..]| ==> ps[1..][i] == ps[i + 1];
    }
  }

  lemma {:induction false} NonEmptyAppend(a: seq<string>, b: seq<string>)
    ensures NonEmpty(a + b) == NonEmpty(a) + NonEmpty(b)
  {
    if a == [] {
      assert a + b == b;
    } else {
      NonEmptyAppend(a[1..], b);
      assert (a + b)[1..] == a[1..] + b;
      assert (a + b)[0] == a[0];
    }
  }

  lemma {:induction false} NonEmptyKeepsAll(ps: seq<string>)
    ensures |NonEmpty(ps)| == |ps| <==> forall i :: 0 <= i < |ps| ==> ps[i] != []
  {
    if ps != [] {
      NonEmptyKeepsAll(ps[1..]);
      NonEmptyShape(ps[1..], {});
      assert NonEmpty(ps) == Keep(ps[0]) + NonEmpty(ps[1..]);
      if ps[0] != [] {
        assert |Keep(ps[0])| == 1;
        assert forall i :: 1 <= i < |ps| ==> ps[i] == ps[1..][i - 1];
      } else {
        assert |Keep(ps[0])| == 0;
      }
    }
  }

  lemma {:induction false} ConcatNonEmpty(ps: seq<string>)
    ensures Concat(NonEmpty(ps)) == Concat(ps)
  {
    if ps != [] {
      ConcatNonEmpty(ps[1..]);
      ConcatAppend(Keep(ps[0]), NonEmpty(ps[1..]));
    }
  }

  lemma {:induction false} ConcatPieces(s: string, d: set<char>)
    ensures Concat(Pieces(s, d)) == Strip(s, d)
    decreases |s|
  {
    var k := Span(s, d);
    if k == |s| {
      WholeWord(s, d);
      assert [s][1..] == [];
    } else {
      FirstCut(s, d);
      ConcatPieces(s[k + 1..], d);
    }
  }

  lemma {:induction false} StripEmpty(s: string, d: set<char>)
    ensures Strip(s, d) == [] <==> AllIn(s, d)
  {
    if s != [] {
      StripEmpty(s[1..], d);
      assert forall i :: 1 <= i < |s| ==> s[i] == s[1..][i - 1];
    }
  }

  /** What a `strtok` loop over `s` returns: the maximal runs of characters
      outside `d`, in order. */
  function Runs(s: string, d: set<char>): seq<string>
  {
    NonEmpty(Pieces(s, d))
  }

  /** At most one run per delimiter plus one; every run is non-empty and
      holds no delimiter. */
  lemma RunsShape(s: string, d: set<char>)
    ensures |Runs(s, d)| <= Count(s, d) + 1
    ensures forall i :: 0 <= i < |Runs(s, d)| ==> Runs(s, d)[i] != [] && Free(Runs(s, d)[i], d)
  {
    PiecesShape(s, d);
    NonEmptyShape(Pieces(s, d), d);
  }

  /** The runs together hold exactly the characters outside `d`, in order. */
  lemma RunsContent(s: string, d: set<char>)
    ensures Concat(Runs(s, d)) == Strip(s, d)
  {
    ConcatNonEmpty(Pieces(s, d));
    ConcatPieces(s, d);
  }

  /** No runs at all exactly when every character is a delimiter. */
  lemma RunsNone(s: string, d: set<char>)
    ensures Runs(s, d) == [] <==> AllIn(s, d)
  {
    RunsContent(s, d);
    RunsShape(s, d);
    StripEmpty(s, d);
    var r := Runs(s, d);
    if r != [] {
      ConcatAppend([r[0]], r[1..]);
      assert r == [r[0]] + r[1..];
      assert [r[0]][1..] == [];
    }
  }

  lemma RunsSplit(a: string, c: char, b: string, d: set<char>)
    requires c in d
    ensures Runs(a + [c] + b, d) == Runs(a, d) + Runs(b, d)
  {
    PiecesSplit(a, c, b, d);
    NonEmptyAppend(Pieces(a, d), Pieces(b, d));
  }

  lemma {:induction false} RunsSkip(pre: string, t: string, d: set<char>)
    requires AllIn(pre, d)
    ensures Runs(pre + t, d) == Runs(t, d)
  {
    if pre == [] {
      assert pre + t == t;
    } else {
      RunsSkip(pre[1..], t, d);
      assert pre + t == [] + [pre[0]] + (pre[1..] + t);
      RunsSplit([], pre[0], pre[1..] + t, d);
      PiecesOfFree([], d);
    }
  }

  /** Every piece is non-empty: the text is non-empty, neither starts nor ends
      with a delimiter, and never has two delimiters side by side. */
  predicate WellSeparated(s: string, d: set<char>)
  {
    && |s| > 0
    && s[0] !in d
    && s[|s| - 1] !in d
    && forall i :: 0 <= i < |s| - 1 ==> !(s[i] in d && s[i + 1] in d)
  }

  lemma {:induction false} SeparatedPiecesNonEmpty(s: string, d: set<char>)
    requires WellSeparated(s, d)
    ensures forall i :: 0 <= i < |Pieces(s, d)| ==> Pieces(s, d)[i] != []
    decreases |s|
  {
    var k := Span(s, d);
    if k < |s| {
      FirstCut(s, d);
      var b := s[k + 1..];
      assert k > 0;
      assert |b| > 0 && b[0] == s[k + 1];
      assert b[|b| - 1] == s[|s| - 1];
      forall i | 0 <= i < |b| - 1
        ensures !(b[i] in d && b[i + 1] in d)
      {
        assert b[i] == s[k + 1 + i] && b[i + 1] == s[k + 1 + i + 1];
      }
      SeparatedPiecesNonEmpty(b, d);
    } else {
      WholeWord(s, d);
    }
  }

  lemma PiecesHaveEmpty(s: string, d: set<char>)
    requires !WellSeparated(s, d)
    ensures exists i :: 0 <= i < |Pieces(s, d)| && Pieces(s, d)[i] == []
  {
    if |s| == 0 || s[0] in d {
      assert Pieces(s, d)[0] == [];
    } else if s[|s| - 1] in d {
      var a := s[..|s| - 1];
      assert s == a + [s[|s| - 1]] + [];
      EmptyPieceAfter(a, s[|s| - 1], [], d);
    } else {
      var i :| 0 <= i < |s| - 1 && s[i] in d && s[i + 1] in d;
      var a, b := s[..i], s[i + 1..];
      assert s == a + [s[i]] + b;
      EmptyPieceAfter(a, s[i], b, d);
    }
  }

  /** A delimiter followed by the end or by another delimiter leaves an empty
      piece right after the pieces before it. */
  lemma EmptyPieceAfter(a: string, c: char, b: string, d: set<char>)
    requires c in d && (b == [] || b[0] in d)
    ensures |Pieces(a, d)| < |Pieces(a + [c] + b, d)|
    ensures Pieces(a + [c] + b, d)[|Pieces(a, d)|] == []
  {
    PiecesSplit(a, c, b, d);
    assert Pieces(b, d)[0] == [];
  }

  /** `strtok` yields one run per delimiter plus one exactly when the text is
      well separated; otherwise some piece was empty and was dropped. */
  lemma RunsCount(s: string, d: set<char>)
    ensures |Runs(s, d)| == Count(s, d) + 1 <==> WellSeparated(s, d)
  {
    PiecesShape(s, d);
    NonEmptyKeepsAll(Pieces(s, d));
    if WellSeparated(s, d) {
      SeparatedPiecesNonEmpty(s, d);
    } else {
      PiecesHaveEmpty(s, d);
    }
  }

  /** `ws` joined with the separator `c`: the inverse of the splits above. */
  function Join(ws: seq<string>, c: char): string
  {
    if ws == [] then []
    else if |ws| == 1 then ws[0]
    else ws[0] + [c] + Join(ws[1..], c)
  }

  /** Splitting at a delimiter undoes joining with it, as long as no word
      holds a delimiter. */
  lemma {:induction false} PiecesOfJoin(ws: seq<string>, c: char, d: set<char>)
    requires |ws| >= 1 && c in d
    requires forall i :: 0 <= i < |ws| ==> Free(ws[i], d)
    ensures Pieces(Join(ws, c), d) == ws
  {
    PiecesOfFree(ws[0], d);
    if |ws| > 1 {
      PiecesOfJoin(ws[1..], c, d);
      PiecesSplit(ws[0], c, Join(ws[1..], c), d);
      assert ws == [ws[0]] + ws[1..];
    }
  }

  lemma {:induction false} NonEmptyKeepsNonEmpty(ps: seq<string>)
    requires forall i :: 0 <= i < |ps| ==> ps[i] != []
    ensures NonEmpty(ps) == ps
  {
    if ps != [] {
      NonEmptyKeepsNonEmpty(ps[1..]);
      assert ps == [ps[0]] + ps[1..];
    }
  }

  /** `strtok` undoes joining with a delimiter, for non-empty words free of
      delimiters. */
  lemma RunsOfJoin(ws: seq<string>, c: char, d: set<char>)
    requires c in d
    requires forall i :: 0 <= i < |ws| ==> ws[i] != [] && Free(ws[i], d)
    ensures Runs(Join(ws, c), d) == ws
  {
    if ws == [] {
      PiecesOfFree([], d);
      NonEmptySingle([]);
    } else {
      PiecesOfJoin(ws, c, d);
      NonEmptyKeepsNonEmpty(ws);
    }
  }

  /** The outcome of one `strtok` call: the token (None for NULL) and the text
      the saved position refers to afterwards. */
  datatype Scan = Scan(token: Option<string>, rest: string)

  /** One call of glibc's `strtok` on the text its saved position refers to:
      skip delimiters; at the end, return NULL and stay there; otherwise
      return the run and move past the single delimiter that ends it. */
  function StrtokNext(s: string, d: set<char>): (r: Scan)
    ensures r.token.Some? ==> |r.rest| < |s|
  {
    TakeRun(SkipDelims(s, d), d)
  }

  /** The second half of a `strtok` call, once delimiters are skipped: NULL at
      the terminator, else the run up to the next delimiter (or the end),
      consuming that one delimiter. */
  function TakeRun(t: string, d: set<char>): (r: Scan)
    ensures r.token.Some? ==> |r.rest| < |t|
  {
    if t == [] then Scan(None, [])
    else
      var k := Span(t, d);
      if k == |t| then Scan(Some(t), []) else Scan(Some(t[..k]), t[k + 1..])
  }

  /** `strtok` returns NULL exactly when only delimiters are left, and
      otherwise a non-empty token free of delimiters. */
  lemma StrtokNextToken(s: string, d: set<char>)
    ensures var r := StrtokNext(s, d);
      && (r.token.None? <==> AllIn(s, d))
      && (r.token.Some? ==> r.token.value != [] && Free(r.token.value, d))
  {
    var t := SkipDelims(s, d);
    var pre := s[..|s| - |t|];
    SkipDelimsAllIn(s, d);
    assert s == pre + t;
    if t != [] {
      assert !AllIn(s, d) by {
        assert s[|pre|] == t[0];
      }
      var k := Span(t, d);
      SpanFree(t, d);
      assert t[..k] == t ==> k == |t|;
      if k == |t| {
        assert t[..k] == t;
      }
    }
  }

  /** The runs of a text that starts outside `d`: its leading run, then the
      runs after the delimiter that ends it, if any. */
  lemma RunsFirst(t: string, d: set<char>)
    requires t != [] && t[0] !in d
    ensures var k := Span(t, d);
      Runs(t, d) == [t[..k]] + (if k == |t| then [] else Runs(t[k + 1..], d))
  {
    var k := Span(t, d);
    assert k > 0;
    if k == |t| {
      WholeWord(t, d);
      NonEmptySingle(t);
      assert t[..k] == t;
    } else {
      FirstCut(t, d);
      NonEmptyAppend([t[..k]], Pieces(t[k + 1..], d));
      NonEmptySingle(t[..k]);
    }
  }

  /** A `strtok` step peels the first run off the runs still ahead. */
  lemma StrtokStep(s: string, d: set<char>)
    ensures var r := StrtokNext(s, d);
      Runs(s, d) == (if r.token.Some? then [r.token.value] + Runs(r.rest, d) else [])
  {
    RunsOfSkipped(s, d);
    StrtokStepTrimmed(SkipDelims(s, d), d);
  }

  /** Leading delimiters add no runs. */
  lemma RunsOfSkipped(s: string, d: set<char>)
    ensures Runs(s, d) == Runs(SkipDelims(s, d), d)
  {
    var t := SkipDelims(s, d);
    var pre := s[..|s| - |t|];
    assert s == pre + t;
    SkipDelimsAllIn(s, d);
    RunsSkip(pre, t, d);
  }

  lemma StrtokStepTrimmed(t: string, d: set<char>)
    requires t == [] || t[0] !in d
    ensures var r := TakeRun(t, d);
      Runs(t, d) == (if r.token.Some? then [r.token.value] + Runs(r.rest, d) else [])
  {
    if t == [] {
      PiecesOfFree(t, d);
      NonEmptySingle(t);
    } else {
      RunsFirst(t, d);
      if Span(t, d) == |t| {
        PiecesOfFree([], d);
        NonEmptySingle([]);
      }
    }
  }

  /** The `strtok(s, d)` / `strtok(NULL, d)` loop used by `tokenize`,
      `chainIt` and `pipeIt`: it collects exactly the maximal runs. */
  method StrtokSplit(s: string, d: set<char>) returns (tokens: seq<string>)
    ensures tokens == Runs(s, d)
  {
    tokens := [];
    var saved := s;
    while true
      invariant tokens + Runs(saved, d) == Runs(s, d)
      decreases |saved|
    {
      var scan := StrtokNext(saved, d);
      StrtokAdvance(tokens, saved, s, d);
      if scan.token.None? {
        return;
      }
      tokens := tokens + [scan.token.value];
      saved := scan.rest;
    }
  }

  /** One turn of the `strtok` loop keeps "tokens so far, then the runs ahead"
      equal to all the runs. */
  lemma StrtokAdvance(tokens: seq<string>, saved: string, s: string, d: set<char>)
    requires tokens + Runs(saved, d) == Runs(s, d)
    ensures var r := StrtokNext(saved, d);
      && (r.token.None? ==> tokens == Runs(s, d))
      && (r.token.Some? ==> (tokens + [r.token.value]) + Runs(r.rest, d) == Runs(s, d))
  {
    StrtokStep(saved, d);
    var r := StrtokNext(saved, d);
    if r.token.None? {
      assert tokens + [] == tokens;
    } else {
      Regroup(tokens, r.token.value, Runs(r.rest, d));
    }
  }

  /** Where the saved position rests once `strtok` has been called on `s`
      until it returned NULL: at the terminator, with nothing left to scan. */
  function Drain(s: string, d: set<char>): (saved: string)
    ensures saved == []
    ensures StrtokNext(saved, d).token.None?
    decreases |s|
  {
    var scan := StrtokNext(s, d);
    if scan.token.None? then scan.rest else Drain(scan.rest, d)
  }

  /** The two characters `a`, `b` occur at offset `i` of `s`. */
  predicate PairAt(s: string, i: int, a: char, b: char)
  {
    0 <= i && i + 1 < |s| && s[i] == a && s[i + 1] == b
  }

  predicate HasPair(s: string, a: char, b: char)
  {
    exists i :: 0 <= i < |s| && PairAt(s, i, a, b)
  }

  /** `strstr(s + i, "ab")`, as an offset into `s`. */
  function FindPairFrom(s: string, a: char, b: char, i: nat): (r: Option<nat>)
    ensures r.Some? ==> i <= r.value && PairAt(s, r.value, a, b)
    ensures r.Some? ==> forall j :: i <= j < r.value ==> !PairAt(s, j, a, b)
    ensures r.None? ==> forall j :: i <= j ==> !PairAt(s, j, a, b)
    decreases |s| - i
  {
    if i + 1 >= |s| then None
    else if s[i] == a && s[i + 1] == b then Some(i)
    else FindPairFrom(s, a, b, i + 1)
  }

  /** `strstr(s, "ab")`: the earliest offset of the pair, or None. */
  function FindPair(s: string, a: char, b: char): (r: Option<nat>)
    ensures r.Some? ==> PairAt(s, r.value, a, b)
    ensures r.Some? ==> forall j :: 0 <= j < r.value ==> !PairAt(s, j, a, b)
    ensures r.None? <==> !HasPair(s, a, b)
  {
    FindPairFrom(s, a, b, 0)
  }
}

=== FILE: tokenizer.dfy ===
/** `tokenize`: the word splitter every command goes through. It cuts a
    command at blanks (space, tab, carriage return, line feed) and keeps the
    non-empty words, in order. */
module Tokenizer {
  import opened Text

  /** The blank characters that separate words. */
  const Blanks: set<char> := {' ', '\t', '\r', '\n'}

  /** The word list `tokenize` returns (without its NULL terminator). */
  function Tokenize(line: string): seq<string>
  {
    Runs(line, Blanks)
  }

  /** Every word is non-empty and blank-free, and there are at most as many
      words as blanks plus one. */
  lemma TokensShape(line: string)
    ensures |Tokenize(line)| <= Count(line, Blanks) + 1
    ensures forall i :: 0 <= i < |Tokenize(line)| ==>
      Tokenize(line)[i] != [] && Free(Tokenize(line)[i], Blanks)
  {
    RunsShape(line, Blanks);
  }

  /** The words hold exactly the line's non-blank characters, in order. */
  lemma TokensContent(line: string)
    ensures Concat(Tokenize(line)) == Strip(line, Blanks)
  {
    RunsContent(line, Blanks);
  }

  /** No words exactly when the line is empty or all blanks. */
  lemma TokensNone(line: string)
    ensures Tokenize(line) == [] <==> AllIn(line, Blanks)
  {
    RunsNone(line, Blanks);
  }

  /** A blank between two texts splits their words and adds none. */
  lemma TokensSplit(a: string, c: char, b: string)
    requires c in Blanks
    ensures Tokenize(a + [c] + b) == Tokenize(a) + Tokenize(b)
  {
    RunsSplit(a, c, b, Blanks);
  }

  /** Joining words with single spaces and tokenizing gives the words back. */
  lemma TokensOfJoin(ws: seq<string>)
    requires forall i :: 0 <= i < |ws| ==> ws[i] != [] && Free(ws[i], Blanks)
    ensures Tokenize(Join(ws, ' ')) == ws
  {
    RunsOfJoin(ws, ' ', Blanks);
  }

  /** The C loop itself: `strtok(line, TOK_DELIM)` and then
      `strtok(NULL, TOK_DELIM)` until NULL, appending each word. */
  method TokenizeLoop(line: string) returns (tokens: seq<string>)
    ensures tokens == Tokenize(line)
  {
    tokens := StrtokSplit(line, Blanks);
  }
}

=== FILE: wrappers.dfy ===
/** The optional-value type the model uses where a C function may return
    NULL. */
module Wrappers {

  datatype Option<+T> = None | Some(value: T)
}
